=== FILE: README.md ===
# Shiitake market dashboard: data pipeline and routing

This project models the core of a Streamlit dashboard for shiitake mushroom
producers (`app.py`). It covers five parts:

- the CSV loader, which falls back from one encoding to the next and picks the date column;
- the price-trend page, which cleans price text, filters by region, grade, channel and date range, and computes monthly and daily means;
- the socio-economic indicator page, which sorts by date, filters each indicator by its own range, and plots it;
- the forecast page, which cleans the prediction table, selects a (grade, channel) pair, and computes the gaps between predicted and actual prices;
- the session state and the routing, which lets only producers reach the dashboards.

Modules, one per part of the program:

- Common: optional values, dates and their order, table cells, row masks (`Filter`), row-wise cleaning (`FilterMap`) and first-match search (`FirstIndex`).
- Numeric: comma stripping, and integer coercion (`to_numeric`) with its round trip through `str`.
- Loader: `load_csv`, written as a method with the encoding loop and proved equal to the function `LoadSpec`.
- PriceRows, Aggregate, PriceTrend: `price_trend_page`.
- Socioecon: `socioecon_page`.
- Forecast: `future_page`.
- Session: `main`, the intro page's enter button and the sidebar's home and logout buttons. `SessionState` is a class whose fields are the two values kept in `st.session_state`.

Some of the program's behaviour becomes parameters of the model:

- Reading a file in a given encoding (`pd.read_csv`) is a function from the encoding name to the table read, or None when the read raises.
- Parsing one date (`pd.to_datetime`) is a function from a cell to an optional date.
- Widget choices (selected region, grade, channel, date ranges, page and tab) are plain arguments.

## Model

| member | source | states |
|---|---|---|
| `Common.Filter` | app.py:756-762 | A boolean mask keeps exactly the rows that pass it, and only rows of the input. |
| `Common.FilterIsSubsequence` | app.py:756-762 | The rows a mask keeps stay in their original relative order. |
| `Common.FilterAppend` | app.py:756-762 | Masking works row by row: it commutes with concatenation. |
| `Common.FilterMultiset` | app.py:756-762 | A mask keeps every copy of a row it selects and no copy of one it rejects, so repeated rows are never merged. |
| `Common.FilterMap` | app.py:729 | Row-wise cleaning keeps the cleaned form of every row that survives, and nothing that no row produced. |
| `Common.FilterMapAppend` | app.py:729 | Cleaning commutes with concatenation, so survivors keep file order. |
| `Common.FilterMapIsFilter` | app.py:729 | Cleaning is the surviving-row mask followed by each survivor's cleaned form: one output per surviving row, in order. |
| `Common.FirstIndex` | app.py:76 | `next(...)` over a generator: the least index passing the test, or none when no element passes. |
| `Common.BeforeIsStrictTotalOrder` | app.py:760-761 | Timestamp comparison is a strict total order, and `<=` is equality or `<`. |
| `Numeric.StripCommas` | app.py:728 | No comma is left, and every other character is kept. |
| `Numeric.StripCommasAppend` | app.py:728 | Comma removal commutes with concatenation. |
| `Numeric.ParseInteger` | app.py:728 | Text coerces only when it starts with a digit or a sign. |
| `Numeric.ParseShow` | app.py:728 | Coercing `str(n)` gives back `n`: printing and coercion are inverse. |
| `Numeric.ToNumeric` | app.py:863-864 | A number is kept, text is coerced by `ParseInteger` (so the text of an integer gives that integer), and a missing value stays missing. |
| `Loader.FirstReadable` | app.py:67-72 | The first encoding, in order, whose read succeeds. Every earlier one failed, and none means all failed. |
| `Loader.DateColumn` | app.py:76 | The first column whose lower-cased name is an alias. With no alias it is column 0. |
| `Loader.Rename` | app.py:77 | Every column with the date column's label is relabelled, the others keep their labels, and the old label is gone. |
| `Loader.CoerceDate` | app.py:78 | Every cell becomes a date or missing. Dates and missing values stay as they are. |
| `Loader.Normalize` | app.py:76-78 | The date column is renamed `date` and coerced, and every other column and cell is unchanged. It raises exactly when another column has the same name or is already named `date`. |
| `Loader.TableOf` | app.py:73-75 | A failed load returns the empty frame, with no columns and no rows. A loaded table is returned as it is. |
| `Loader.LoadSpec` | app.py:65-79 | The result is the empty table exactly when no encoding could read the file. A loaded table has a `date` column. |
| `Loader.FirstReadableEncodingWins` | app.py:67-75 | The first encoding that reads the file decides the table, whatever later encodings would yield. |
| `Loader.LoadCsv` | app.py:65-79 | The encoding loop with `break` returns what `LoadSpec` specifies. |
| `PriceRows.CleanPrice` | app.py:728 | A price the reader inferred as a number survives `astype(str)`, comma removal and `to_numeric` unchanged, and a missing price (the text "nan") stays missing. |
| `PriceRows.SeparatedPriceParsed` | app.py:728 | The price text "12,345" becomes 12345. |
| `PriceRows.NonNumericPriceMissing` | app.py:728 | The price text "N/A" becomes missing. |
| `PriceRows.CommaIgnored` | app.py:728 | Inserting a thousands separator never changes the coerced price. |
| `PriceRows.Clean` | app.py:725-729 | The cleaned rows are exactly the cleaned forms of the rows that survive `dropna`. |
| `PriceRows.CleanOneRowPerSurvivor` | app.py:725-729 | The cleaned table has exactly one row per row `dropna` keeps, in order, so repeated rows count in the means. |
| `PriceRows.CleanRow` | app.py:729 | A row survives exactly when it has a date, a region and a price that coerces. Its fields carry over. |
| `PriceRows.CellText` | app.py:728 | `astype(str)`: a number prints as text that coerces back to it, text is kept, and "nan" does not coerce. A date, which the price column never holds, prints as text that does not coerce either. |
| `PriceRows.CleanAppend` | app.py:729 | Cleaning keeps file order. |
| `PriceRows.SelectRows` | app.py:756-762 | The rows for one region, grade and channel within an inclusive date range: exactly the matching rows, in order. |
| `PriceRows.SelectRowsKeepsCopies` | app.py:756-762 | The mask keeps every copy of a matching row and none of a non-matching one. |
| `Aggregate.InsertSpec` | app.py:768 | Adding a price keeps the groups in ascending key order, opens no empty group, and brings in no key but the price's own. |
| `Aggregate.InsertTotals` | app.py:768 | Adding a price adds it to the sum and one to the count of its own key, and changes no other key. |
| `Aggregate.Period` | app.py:767-807 | The group of a date keeps its year and month. The monthly group is the first of the month (`dt.to_period("M")`, line 767), and the daily group is the date itself (`dt.date`, line 807). |
| `Aggregate.PeriodOrder` | app.py:767 | Two dates share a monthly group exactly when they are in the same calendar month, and grouping never puts a later date in an earlier group. |
| `Aggregate.Total` | app.py:768 | A group's sum is 0 when no row falls in it, and never negative when no price is. |
| `Aggregate.Count` | app.py:768 | A group's size is at most the number of rows, and 0 exactly when no row falls in it. |
| `Aggregate.Buckets` | app.py:767-808 | The groups of the monthly (lines 767-768) and daily (lines 807-808) `groupby` are in ascending key order and non-empty, and for every key they hold its rows' total and count. |
| `Aggregate.PeriodsPresent` | app.py:768 | Every row's period has a group. |
| `Aggregate.BucketsHoldTotals` | app.py:768 | Each group holds its own key's total and a positive count. |
| `Aggregate.MeansOfGroups` | app.py:768 | The means of the groups have strictly ascending keys, and each is its group's total over its positive count. |
| `Aggregate.MeansCoverRows` | app.py:768 | The means of the groups have a point for every row's period. |
| `Aggregate.GroupMean` | app.py:767-808 | `groupby(period).mean()`, monthly at lines 767-768 and daily at lines 807-808: keys are strictly ascending, each value is its group's sum over its count, and every row's period appears. |
| `Aggregate.MonthlyMeanExample` | app.py:767-768 | Prices 100 and 200 in May 2023 give one monthly point of 150. |
| `PriceTrend.TrendChart` | app.py:756-768 | Shows the warning exactly when no row matches. Otherwise it shows a non-empty ascending series of the matching rows' group means that covers every matching row. |
| `PriceTrend.PriceTrendPage` | app.py:718-811 | A failed read shows only the error. Otherwise the monthly chart is the monthly-mean chart and the daily chart the daily-mean chart of the cleaned rows, each over its own range, and each warns exactly when no cleaned row matches that range. |
| `Socioecon.DateLeIsTotalPreorder` | app.py:624 | The sort order, with missing dates last, is total and transitive. |
| `Socioecon.InsertByDateSorted` | app.py:624 | Inserting a row into date-sorted rows keeps them sorted. |
| `Socioecon.SortByDate` | app.py:624 | `sort_values("date")` gives a permutation of the rows in date order, missing dates last. |
| `Socioecon.InWindow` | app.py:669 | A row passes the mask only when its date is present and the range is not reversed. A NaT date never passes. |
| `Socioecon.Window` | app.py:669-670 | `df.loc[mask]` keeps exactly the rows inside the range, and only rows of the table. |
| `Socioecon.WindowKeepsCopies` | app.py:669-670 | The mask keeps every copy of a row inside the range and none of a row outside it. |
| `Socioecon.WindowSorted` | app.py:669-670 | Masking sorted rows by a date range leaves them sorted. |
| `Socioecon.IndicatorPanel` | app.py:669-671 | Plots one point per masked row, repeated rows included. Each point carries that row's own date and value, every point is inside the inclusive range, and points are in date order when the rows were sorted. |
| `Socioecon.IndicatorPanelAsWritten` | app.py:669-671 | Indexing the masked rows by the whole table's date column raises exactly when the mask drops a row. Otherwise the plot is the same. |
| `Socioecon.NarrowedRangeRaises` | app.py:669-671 | Two rows with the range narrowed to the second one: the code as written raises, while the corrected panel plots that one row. |
| `Socioecon.ColumnIndex` | app.py:640 | The column with the given name, or none exactly when no column has it. |
| `Socioecon.PanelFor` | app.py:640-671 | The corrected panel: the missing-column warning exactly when the indicator has no column, and otherwise the plot of that column of the given rows over the indicator's range. |
| `Socioecon.PanelForAsWritten` | app.py:640-671 | The panel as written: the warning exactly when the column is absent, the length-mismatch exception exactly when the column is present and the range leaves out a row, and otherwise the corrected panel. |
| `Socioecon.RunGrid` | app.py:636-671 | The grid loop runs to the end exactly when no panel raises. Otherwise the run stops at the first raising panel, after showing the panels before it. |
| `Socioecon.CorrectedGrid` | app.py:624-671 | Six corrected panels in grid order, each a warning exactly when its indicator has no column, and otherwise the plot of the table sorted by date (`sort_values("date")`) over that indicator's own range. |
| `Socioecon.WrittenGrid` | app.py:636-671 | The six panels as written: a warning exactly when the indicator has no column, and every panel that does not raise equals the corrected one. |
| `Socioecon.WrittenPanel` | app.py:669-671 | An indicator's panel as written raises exactly when its column exists and its range leaves out a row of the table. Otherwise it equals the corrected panel. |
| `Socioecon.WrittenGridRun` | app.py:636-671 | The grid as written aborts exactly when some plotted range leaves out a row. Otherwise it shows the corrected panels, and when it aborts, what it showed is a strict prefix of them. |
| `Socioecon.SocioeconPage` | app.py:621-671 | The corrected page. The exception `load_csv` raises for a second `date` column aborts the run before any panel. Nothing is shown exactly when the loaded table is empty. Otherwise the page shows the corrected grid: six panels, each a warning exactly when its indicator has no column and otherwise the plot of the date-sorted table over that indicator's own range. |
| `Socioecon.SocioeconPageAsWritten` | app.py:621-671 | The page as written aborts exactly when `load_csv` raises or some plotted range leaves out a row. Otherwise it is the corrected page, and when a range aborts it, the panels shown are a strict prefix of the corrected ones. |
| `Socioecon.PagesAgreeUnlessRangeDropsRow` | app.py:669-671 | The two pages agree exactly when no plotted range leaves out a row of the loaded table. |
| `Forecast.CleanForecastRow` | app.py:863-865 | A row survives exactly when its region, both coerced codes and its predicted price are present. Its values carry over. |
| `Forecast.Prepare` | app.py:863-865 | The cleaned prediction table is exactly the surviving rows' cleaned forms. |
| `Forecast.PrepareOneRowPerSurvivor` | app.py:863-865 | The cleaned prediction table has exactly one row per row `dropna` keeps, in order. |
| `Forecast.SelectPair` | app.py:876 | Exactly the rows with the chosen grade and channel, in order. |
| `Forecast.SelectPairKeepsCopies` | app.py:876 | The selection keeps every copy of a row with the pair, so the page shows one line per such row. |
| `Forecast.Gap` | app.py:915-916 | The gap is missing exactly when the actual price is. The actual price plus the gap is the prediction, and the gap is positive exactly when the prediction is above the actual price. |
| `Forecast.GapTable` | app.py:915-931 | One line per selected row, in order, with its prices. Both gaps are present exactly when their actual price is, and add back up to the prediction. |
| `Forecast.GapTableAppend` | app.py:915-931 | The comparison table follows the order of the selected rows. |
| `Forecast.TextCodesSurvive` | app.py:863-865 | A row whose grade and channel codes are the text of two integers survives cleaning with exactly those codes. |
| `Forecast.GapExample` | app.py:915-916 | A prediction of 1000 against an actual mean of 900 and a last sale of 950 gives gaps of +100 and +50. |
| `Forecast.NoPairExactlyWhenEmpty` | app.py:876-879 | The selection is empty exactly when no cleaned row has the chosen grade and channel. |
| `Forecast.Present` | app.py:876-931 | The warning appears exactly when no cleaned row has the chosen pair. Otherwise the price table has one line per selected row, line i being row i's region and prediction (`df_sel`, line 881), and the comparison table is `GapTable` of the same selection. |
| `Forecast.PricesMatchGaps` | app.py:881-916 | Line i of the price table carries the same region and prediction as line i of the comparison table. |
| `Forecast.FuturePage` | app.py:853-860 | The error appears exactly when neither UTF-8 nor CP949 reads the file. The UTF-8 table is used when it reads, else the CP949 one. |
| `Session.RemoveAll` | app.py:172 | `replace(pat, "")` shortens or keeps the text, and leaves text without an occurrence unchanged. |
| `Session.RemovePrefix` | app.py:172 | Removing a mark that prefixes a name without the mark leaves exactly the name. |
| `Session.StripLabel` | app.py:172 | The stripped label is never longer than the chosen one, and a plain member type passes through all three removals unchanged. |
| `Session.StripMarked` | app.py:172 | A label made of one of the three marks and a plain name becomes exactly that name. |
| `Session.LabelsStripped` | app.py:165-172 | The three radio labels become "생산자", "구매자" and "비회원". |
| `Session.TabOf` | app.py:965-975 | The producer menu selects the socio-economic tab or the price tab by their labels. Anything else is the forecast tab. |
| `Session.Route` | app.py:978-999 | The intro page shows exactly when the visitor has not entered. No-permission shows exactly when an entered visitor is not a producer. Each dashboard shows exactly for a producer selecting it. |
| `Session.DashboardsOnlyForProducers` | app.py:993-999 | A dashboard is shown exactly to an entered producer who selected a dashboard page. |
| `Session.OnlyProducerLabelAdmitted` | app.py:165-172 | Of the three member types on offer, only the producer label escapes the no-permission page. |
| `Session.SessionState.constructor` | app.py:979-982 | A new session has not entered and has an empty member type. |
| `Session.SessionState.Enter` | app.py:170-172 | Entering sets entered and stores the label without its emoji prefix. |
| `Session.SessionState.GoHome` | app.py:202-205 | The home button resets both session values. |
| `Session.SessionState.Logout` | app.py:206-209 | The logout button resets both session values. |
| `Session.SessionState.CurrentView` | app.py:983-999 | The page this run renders follows the intro and permission rules of `main`. |
| `Session.Visit` | app.py:165-209 | A buyer sees no-permission, then a producer sees the chosen dashboard tab, then logging out shows the intro page. |

## Left out

- Page styling and rendering: HTML and CSS, chart drawing, number formatting in the tables, and the QR code with its URL.
- The social big-data page and its literal keyword tables, the no-permission page's content, and the first of the two identical `producer_page` definitions (the second one, which Python binds, is modelled).
- Decoding bytes and parsing CSV text (`pd.read_csv`). Each read is a parameter that yields a table or fails.
- Parsing a date (`pd.to_datetime`). It is a parameter. Timestamps carry no time of day.
- Widget option lists. The choice lists (sorted unique regions, grades and channels) and the date pickers' default and bounding values (`dmin`, `dmax`) are not modelled: any selection and any range are arguments.
- Loader.Lower: lower-cases ASCII letters only. The Hangul aliases have no case, but other Unicode case folding is not modelled.
- Numeric.ParseInteger: accepts only an optional sign followed by decimal digits. Decimal points, exponents and surrounding whitespace, which `to_numeric` also accepts, make the model's value missing.
- PriceRows.Clean: the `astype(int)` casts of the grade and channel columns are taken as already done. A missing code or non-numeric text makes the cast raise, and a fractional float code (1.5) is truncated to its integer part; neither is modelled.
- Loader.Normalize: when two columns end up named `date`, pandas raises while coercing. The model reports this as the outcome `DuplicateDateColumn`; the socio-economic page turns it into a run aborted before any panel. The exception's message is not modelled.
- Socioecon.SortByDate: fixes one order among rows with equal dates. pandas' default sort is not stable, so the page may order such rows differently.
- PriceTrend.PriceTrendPage: the file is given as rows already typed. A file missing one of the columns 조사일, 도, 등급, 유통구분 or 당일 makes `price_trend_page` raise `KeyError` (app.py:725-729); the model cannot express that exception.
- Forecast.FuturePage: the file is given as rows already typed. A file missing 등급_num, 유통_num or 예상단가(원) (app.py:863-865), or 실제평균단가 or 마지막판매단가 (app.py:915-916), makes `future_page` raise `KeyError`; the model cannot express that exception.
- Numeric.ToNumeric: the code columns never hold dates, so its `Day` case cannot be reached. The model sends a date to missing, whereas `to_numeric` would turn it into its nanosecond timestamp.
- Forecast selection: the chosen grade and channel are integers. The floating-point codes that `to_numeric` can produce are not modelled.
- Prices and gaps are exact (integers and reals). Floating-point rounding in the means and gaps is not modelled.
- `st.rerun()` and the widget keys are not modelled. Each run of the script is modelled as one evaluation of `Route` on the current session state.

## Findings

| source | as written | input that shows it | evidently intended | confidence | as-written member | corrected member |
|---|---|---|---|---|---|---|
| app.py:669-671 | The masked indicator frame is re-indexed with `set_index(df["date"])`, the date column of the whole table. pandas raises a length mismatch whenever the mask drops a row. | Two monthly rows (2022-01-01, 2022-02-01) with the range narrowed to 2022-02-01..2022-02-01. A table with any missing date hits it too, even with the default range. | Index the masked rows by their own dates (`df.loc[mask, "date"]`) and plot the rows inside the range. | high, not executed | `Socioecon.SocioeconPageAsWritten` | `Socioecon.SocioeconPage` |

=== FILE: aggregate.dfy ===
/**
 * The aggregation of the price-trend page: `groupby(period)["당일"].mean()`.
 * The selected rows are grouped by calendar month (the monthly chart) or by
 * calendar date (the daily chart), and each group gives the arithmetic mean of
 * its prices; groups come out in ascending order of their key, as groupby
 * sorts them.
 */
module Aggregate {
  import opened Common
  import opened PriceRows

  datatype Granularity = Monthly | Daily

  /**
   * The group a date falls in: its year-month (`dt.to_period("M")`, written
   * as the first day of the month) or the date itself (`dt.date`).
   */
  function Period(g: Granularity, d: Date): (p: Date)
    ensures p.year == d.year && p.month == d.month
    ensures g.Monthly? ==> p.day == 1
    ensures g.Daily? ==> p == d
  {
    match g
    case Monthly => Date(d.year, d.month, 1)
    case Daily => d
  }

  /**
   * Two dates share a monthly group exactly when they fall in the same
   * calendar month, and grouping keeps the order of dates: a later date never
   * falls in an earlier group.
   */
  lemma PeriodOrder(g: Granularity, a: Date, b: Date)
    ensures Period(Monthly, a) == Period(Monthly, b) <==> a.year == b.year && a.month == b.month
    ensures NotAfter(a, b) ==> NotAfter(Period(g, a), Period(g, b))
  {
  }

  /** The sum of the prices of the rows in group `k`: nothing for an empty group, never negative for non-negative prices. */
  function Total(rows: seq<PriceRow>, g: Granularity, k: Date): (t: int)
    ensures Count(rows, g, k) == 0 ==> t == 0
    ensures (forall i :: 0 <= i < |rows| ==> rows[i].price >= 0) ==> t >= 0
  {
    if rows == [] then 0
    else (if Period(g, rows[0].date) == k then rows[0].price else 0) + Total(rows[1..], g, k)
  }

  /** The number of rows in group `k`: at most all of them, and zero exactly when no row falls in the group. */
  function Count(rows: seq<PriceRow>, g: Granularity, k: Date): (c: nat)
    ensures c <= |rows|
    ensures c == 0 <==> forall i :: 0 <= i < |rows| ==> Period(g, rows[i].date) != k
  {
    if rows == [] then 0
    else
      var rest := Count(rows[1..], g, k);
      assert (forall i :: 0 <= i < |rows[1..]| ==> Period(g, rows[1..][i].date) != k)
             <==> (forall i :: 1 <= i < |rows| ==> Period(g, rows[i].date) != k) by {
        assert forall i :: 1 <= i < |rows| ==> rows[i] == rows[1..][i - 1];
      }
      (if Period(g, rows[0].date) == k then 1 else 0) + rest
  }

  /** A running group: its key, the sum of its prices so far and how many there were. */
  datatype Bucket = Bucket(key: Date, sum: int, count: nat)

  ghost predicate Ascending(b: seq<Bucket>)
  {
    forall i, j :: 0 <= i < j < |b| ==> Before(b[i].key, b[j].key)
  }

  ghost predicate NonEmptyGroups(b: seq<Bucket>)
  {
    forall i :: 0 <= i < |b| ==> b[i].count > 0
  }

  /** The sum recorded for key `k`, 0 when there is no bucket for it. */
  function SumIn(b: seq<Bucket>, k: Date): int
  {
    if b == [] then 0 else if b[0].key == k then b[0].sum else SumIn(b[1..], k)
  }

  /** The count recorded for key `k`, 0 when there is no bucket for it. */
  function CountIn(b: seq<Bucket>, k: Date): nat
  {
    if b == [] then 0 else if b[0].key == k then b[0].count else CountIn(b[1..], k)
  }

  /** Add one price to the bucket of its key, opening the bucket in key order if it is new. */
  function Insert(b: seq<Bucket>, k: Date, p: int): seq<Bucket>
  {
    if b == [] then [Bucket(k, p, 1)]
    else if b[0].key == k then [Bucket(k, b[0].sum + p, b[0].count + 1)] + b[1..]
    else if Before(k, b[0].key) then [Bucket(k, p, 1)] + b
    else [b[0]] + Insert(b[1..], k, p)
  }

  lemma {:induction false} AbsentKey(b: seq<Bucket>, k: Date)
    requires forall i :: 0 <= i < |b| ==> b[i].key != k
    ensures SumIn(b, k) == 0 && CountIn(b, k) == 0
  {
    if b != [] {
      AbsentKey(b[1..], k);
    }
  }

  lemma {:induction false} CountInPresent(b: seq<Bucket>, k: Date)
    requires CountIn(b, k) > 0
    ensures exists i :: 0 <= i < |b| && b[i].key == k
  {
    if b[0].key != k {
      CountInPresent(b[1..], k);
      var i :| 0 <= i < |b[1..]| && b[1..][i].key == k;
      assert b[i + 1].key == k;
    }
  }

  lemma {:induction false} LookupAt(b: seq<Bucket>, i: nat)
    requires Ascending(b) && i < |b|
    ensures SumIn(b, b[i].key) == b[i].sum && CountIn(b, b[i].key) == b[i].count
  {
    if i > 0 {
      assert Before(b[0].key, b[i].key);
      assert Ascending(b[1..]);
      LookupAt(b[1..], i - 1);
    }
  }

  /** Inserting keeps the buckets in key order, opens no empty group and brings in no key but its own. */
  lemma {:induction false} InsertSpec(b: seq<Bucket>, k: Date, p: int)
    requires Ascending(b) && NonEmptyGroups(b)
    ensures Ascending(Insert(b, k, p)) && NonEmptyGroups(Insert(b, k, p))
    ensures forall i :: 0 <= i < |Insert(b, k, p)| ==>
              Insert(b, k, p)[i].key == k || exists j :: 0 <= j < |b| && b[j].key == Insert(b, k, p)[i].key
  {
    var r := Insert(b, k, p);
    if b == [] {
    } else if b[0].key == k {
      assert r[1..] == b[1..];
      forall i | 0 <= i < |r| ensures r[i].key == b[i].key { }
    } else if Before(k, b[0].key) {
      assert r[1..] == b;
      forall i, j | 0 <= i < j < |r| ensures Before(r[i].key, r[j].key) {
        if i == 0 {
          BeforeIsStrictTotalOrder(k, b[0].key, b[j - 1].key);
        }
      }
    } else {
      BeforeIsStrictTotalOrder(b[0].key, k, k);
      assert Ascending(b[1..]);
      InsertSpec(b[1..], k, p);
      var rest := Insert(b[1..], k, p);
      assert r == [b[0]] + rest;
      forall i | 0 <= i < |rest| ensures Before(b[0].key, rest[i].key) {
        if rest[i].key != k {
          var j :| 0 <= j < |b[1..]| && b[1..][j].key == rest[i].key;
          assert Before(b[0].key, b[j + 1].key);
        }
      }
      forall i | 0 <= i < |r| ensures r[i].key == k || exists j :: 0 <= j < |b| && b[j].key == r[i].key {
        if i > 0 && r[i].key != k {
          var j :| 0 <= j < |b[1..]| && b[1..][j].key == r[i].key;
          assert b[j + 1].key == r[i].key;
        }
      }
    }
  }

  /** Inserting adds the price to the sum and one to the count of its own key, and changes no other key. */
  lemma {:induction false} InsertTotals(b: seq<Bucket>, k: Date, p: int)
    requires Ascending(b)
    ensures forall k' :: SumIn(Insert(b, k, p), k') == SumIn(b, k') + (if k' == k then p else 0)
    ensures forall k' :: CountIn(Insert(b, k, p), k') == CountIn(b, k') + (if k' == k then 1 else 0)
  {
    var r := Insert(b, k, p);
    if b == [] {
    } else if b[0].key == k {
      assert r[1..] == b[1..];
    } else if Before(k, b[0].key) {
      assert r[1..] == b;
      forall i | 0 <= i < |b| ensures b[i].key != k {
        BeforeIsStrictTotalOrder(k, b[0].key, b[i].key);
      }
      AbsentKey(b, k);
    } else {
      assert Ascending(b[1..]);
      InsertTotals(b[1..], k, p);
      assert r[1..] == Insert(b[1..], k, p);
    }
  }

  /**
   * The buckets of the rows, by inserting the rows one after another: keys
   * ascending, no empty group, and for every key the total and the count of
   * its rows.
   */
  function Buckets(rows: seq<PriceRow>, g: Granularity): (b: seq<Bucket>)
    ensures Ascending(b) && NonEmptyGroups(b)
    ensures forall k :: SumIn(b, k) == Total(rows, g, k)
    ensures forall k :: CountIn(b, k) == Count(rows, g, k)
  {
    if rows == [] then []
    else
      var rest := Buckets(rows[1..], g);
      InsertSpec(rest, Period(g, rows[0].date), rows[0].price);
      InsertTotals(rest, Period(g, rows[0].date), rows[0].price);
      Insert(rest, Period(g, rows[0].date), rows[0].price)
  }

  /** Every row's period has a bucket. */
  lemma PeriodsPresent(rows: seq<PriceRow>, g: Granularity, n: nat)
    requires n < |rows|
    ensures exists i :: 0 <= i < |Buckets(rows, g)| && Buckets(rows, g)[i].key == Period(g, rows[n].date)
  {
    var b := Buckets(rows, g);
    var p := Period(g, rows[n].date);
    assert Count(rows, g, p) != 0;
    assert CountIn(b, p) > 0;
    CountInPresent(b, p);
  }

  /** Each bucket holds its key's total and count. */
  lemma BucketsHoldTotals(rows: seq<PriceRow>, g: Granularity)
    ensures forall i :: 0 <= i < |Buckets(rows, g)| ==>
              var b := Buckets(rows, g);
              b[i].sum == Total(rows, g, b[i].key) && b[i].count == Count(rows, g, b[i].key) && b[i].count > 0
  {
    var b := Buckets(rows, g);
    forall i | 0 <= i < |b| ensures b[i].sum == Total(rows, g, b[i].key) && b[i].count == Count(rows, g, b[i].key) {
      LookupAt(b, i);
    }
  }

  /** One point per bucket: its key and its sum over its count. */
  function Means(b: seq<Bucket>): seq<(Date, real)>
    requires NonEmptyGroups(b)
  {
    seq(|b|, i requires 0 <= i < |b| => (b[i].key, b[i].sum as real / b[i].count as real))
  }

  /** The means of the buckets: keys strictly ascending, each the mean of its own group. */
  lemma MeansOfGroups(rows: seq<PriceRow>, g: Granularity)
    ensures var r := Means(Buckets(rows, g));
            (forall i, j :: 0 <= i < j < |r| ==> Before(r[i].0, r[j].0))
            && (forall i :: 0 <= i < |r| ==> Count(rows, g, r[i].0) > 0)
            && (forall i :: 0 <= i < |r| ==>
                  r[i].1 == Total(rows, g, r[i].0) as real / Count(rows, g, r[i].0) as real)
  {
    BucketsHoldTotals(rows, g);
  }

  /** The means of the buckets cover every row's period. */
  lemma MeansCoverRows(rows: seq<PriceRow>, g: Granularity)
    ensures var r := Means(Buckets(rows, g));
            forall x :: x in rows ==> exists i :: 0 <= i < |r| && r[i].0 == Period(g, x.date)
  {
    var b := Buckets(rows, g);
    var r := Means(b);
    forall x | x in rows ensures exists i :: 0 <= i < |r| && r[i].0 == Period(g, x.date) {
      var n :| 0 <= n < |rows| && rows[n] == x;
      PeriodsPresent(rows, g, n);
      var i :| 0 <= i < |b| && b[i].key == Period(g, x.date);
      assert r[i].0 == Period(g, x.date);
    }
  }

  /**
   * `groupby(period)["당일"].mean()`: one entry per group present among the
   * rows, keys strictly ascending, each value the sum of the group's prices
   * divided by their count.
   */
  function GroupMean(rows: seq<PriceRow>, g: Granularity): (r: seq<(Date, real)>)
    ensures forall i, j :: 0 <= i < j < |r| ==> Before(r[i].0, r[j].0)
    ensures forall i :: 0 <= i < |r| ==> Count(rows, g, r[i].0) > 0
    ensures forall i :: 0 <= i < |r| ==>
              r[i].1 == Total(rows, g, r[i].0) as real / Count(rows, g, r[i].0) as real
    ensures forall x :: x in rows ==> exists i :: 0 <= i < |r| && r[i].0 == Period(g, x.date)
  {
    MeansOfGroups(rows, g);
    MeansCoverRows(rows, g);
    Means(Buckets(rows, g))
  }

  /** Two prices of 100 and 200 in the same month give a monthly mean of 150. */
  lemma MonthlyMeanExample(region: string, grade: int, channel: int)
    ensures GroupMean([PriceRow(Date(2023, 5, 3), region, grade, channel, 100),
                       PriceRow(Date(2023, 5, 20), region, grade, channel, 200)], Monthly)
            == [(Date(2023, 5, 1), 150.0)]
  {
    var rows := [PriceRow(Date(2023, 5, 3), region, grade, channel, 100),
                 PriceRow(Date(2023, 5, 20), region, grade, channel, 200)];
    assert rows[1..] == [rows[1]];
    assert rows[1..][1..] == [];
    assert Buckets(rows[1..], Monthly) == [Bucket(Date(2023, 5, 1), 200, 1)];
    assert Buckets(rows, Monthly) == [Bucket(Date(2023, 5, 1), 300, 2)];
  }
}

=== FILE: common.dfy ===
/**
 * Values shared by the dashboard's data pipeline: optional values, calendar
 * dates in the order pandas compares timestamps, the cells of a loaded table,
 * and the two sequence operations every page uses (keeping the rows a mask
 * selects, and finding the first entry that satisfies a test).
 */
module Common {

  datatype Option<+T> = None | Some(value: T)

  /** A calendar date as the date parser yields it; timestamps in the data carry no time of day. */
  datatype Date = Date(year: int, month: int, day: int)

  /** Strict chronological order: lexicographic on (year, month, day). */
  predicate Before(a: Date, b: Date)
  {
    a.year < b.year
    || (a.year == b.year && (a.month < b.month || (a.month == b.month && a.day < b.day)))
  }

  /** `a <= b` on dates. */
  predicate NotAfter(a: Date, b: Date)
  {
    !Before(b, a)
  }

  /** The mask `start <= date <= end`, both bounds inclusive. */
  predicate InRange(d: Date, start: Date, end: Date)
  {
    NotAfter(start, d) && NotAfter(d, end)
  }

  lemma BeforeIsStrictTotalOrder(a: Date, b: Date, c: Date)
    ensures !Before(a, a)
    ensures Before(a, b) && Before(b, c) ==> Before(a, c)
    ensures a != b ==> Before(a, b) || Before(b, a)
    ensures NotAfter(a, b) <==> a == b || Before(a, b)
  {
  }

  /**
   * One cell of a table as the CSV reader yields it: a missing value (NaN or
   * NaT), a number the reader inferred, text, or a parsed date.
   */
  datatype Cell = Blank | Num(n: int) | Text(s: string) | Day(date: Date)

  /** `a` can be obtained from `b` by deleting elements: the order of what is kept is unchanged. */
  predicate IsSubsequence<T(==)>(a: seq<T>, b: seq<T>)
  {
    a == []
    || (b != []
        && ((a[0] == b[0] && IsSubsequence(a[1..], b[1..])) || IsSubsequence(a, b[1..])))
  }

  /** The rows of `s` a boolean mask `keep` selects, in their original order (`df[mask]`). */
  function Filter<T(==)>(s: seq<T>, keep: T -> bool): (r: seq<T>)
    ensures |r| <= |s|
    ensures forall i :: 0 <= i < |r| ==> r[i] in s && keep(r[i])
    ensures forall i :: 0 <= i < |s| && keep(s[i]) ==> s[i] in r
  {
    if s == [] then []
    else if keep(s[0]) then [s[0]] + Filter(s[1..], keep)
    else Filter(s[1..], keep)
  }

  /** A mask keeps the relative order of the rows it selects. */
  lemma {:induction false} FilterIsSubsequence<T>(s: seq<T>, keep: T -> bool)
    ensures IsSubsequence(Filter(s, keep), s)
  {
    if s != [] {
      FilterIsSubsequence(s[1..], keep);
    }
  }

  /** Masking works row by row: it commutes with concatenation. */
  lemma {:induction false} FilterAppend<T>(a: seq<T>, b: seq<T>, keep: T -> bool)
    ensures Filter(a + b, keep) == Filter(a, keep) + Filter(b, keep)
  {
    if a != [] {
      assert (a + b)[1..] == a[1..] + b;
      FilterAppend(a[1..], b, keep);
    } else {
      assert a + b == b;
    }
  }

  /** A mask keeps every copy of a row it selects and no copy of one it rejects. */
  lemma {:induction false} FilterMultiset<T>(s: seq<T>, keep: T -> bool)
    ensures forall x :: multiset(Filter(s, keep))[x] == if keep(x) then multiset(s)[x] else 0
  {
    if s != [] {
      FilterMultiset(s[1..], keep);
      assert s == [s[0]] + s[1..];
      assert multiset(s) == multiset([s[0]]) + multiset(s[1..]);
      if keep(s[0]) {
        assert multiset(Filter(s, keep)) == multiset([s[0]]) + multiset(Filter(s[1..], keep));
      }
    }
  }

  /** A mask that leaves the length unchanged dropped nothing. */
  lemma {:induction false} FilterFullLength<T>(s: seq<T>, keep: T -> bool)
    requires |Filter(s, keep)| == |s|
    ensures forall i :: 0 <= i < |s| ==> keep(s[i])
    ensures Filter(s, keep) == s
  {
    if s != [] {
      assert keep(s[0]);
      FilterFullLength(s[1..], keep);
      assert forall i :: 1 <= i < |s| ==> s[i] == s[1..][i - 1];
    }
  }

  /** A mask that keeps every row leaves the sequence as it is. */
  lemma {:induction false} FilterKeepsAll<T>(s: seq<T>, keep: T -> bool)
    requires forall i :: 0 <= i < |s| ==> keep(s[i])
    ensures Filter(s, keep) == s
  {
    if s != [] {
      FilterKeepsAll(s[1..], keep);
    }
  }

  /**
   * Row-wise cleaning: each row is either dropped (None) or replaced by its
   * cleaned form; the survivors keep their order.
   */
  function FilterMap<A, B(==)>(s: seq<A>, f: A -> Option<B>): (r: seq<B>)
    ensures |r| <= |s|
    ensures forall i :: 0 <= i < |s| && f(s[i]).Some? ==> f(s[i]).value in r
    ensures forall j :: 0 <= j < |r| ==> exists i :: 0 <= i < |s| && f(s[i]) == Some(r[j])
  {
    if s == [] then []
    else
      var rest := FilterMap(s[1..], f);
      assert forall j :: 0 <= j < |rest| ==> exists i :: 0 <= i < |s| && f(s[i]) == Some(rest[j]) by {
        forall j | 0 <= j < |rest| ensures exists i :: 0 <= i < |s| && f(s[i]) == Some(rest[j]) {
          var i :| 0 <= i < |s[1..]| && f(s[1..][i]) == Some(rest[j]);
          assert f(s[i + 1]) == Some(rest[j]);
        }
      }
      match f(s[0])
      case Some(x) => [x] + rest
      case None => rest
  }

  /** Cleaning commutes with concatenation, so the survivors appear in the order of the input. */
  lemma {:induction false} FilterMapAppend<A, B>(a: seq<A>, b: seq<A>, f: A -> Option<B>)
    ensures FilterMap(a + b, f) == FilterMap(a, f) + FilterMap(b, f)
  {
    if a == [] {
      assert a + b == b;
    } else {
      assert (a + b)[1..] == a[1..] + b;
      FilterMapAppend(a[1..], b, f);
    }
  }

  /**
   * Cleaning is the mask `keep` (the rows that survive) followed by taking
   * each survivor's cleaned form: one output per surviving row, in order.
   */
  lemma {:induction false} FilterMapIsFilter<A, B>(s: seq<A>, f: A -> Option<B>, keep: A -> bool)
    requires forall x :: keep(x) <==> f(x).Some?
    ensures |FilterMap(s, f)| == |Filter(s, keep)|
    ensures forall j :: 0 <= j < |Filter(s, keep)| ==> f(Filter(s, keep)[j]) == Some(FilterMap(s, f)[j])
  {
    if s != [] {
      FilterMapIsFilter(s[1..], f, keep);
      var rest, kept := FilterMap(s[1..], f), Filter(s[1..], keep);
      var fs, ks := FilterMap(s, f), Filter(s, keep);
      if keep(s[0]) {
        assert fs == [f(s[0]).value] + rest;
        assert ks == [s[0]] + kept;
        forall j | 0 <= j < |ks| ensures f(ks[j]) == Some(fs[j]) {
          if j > 0 {
            assert ks[j] == kept[j - 1] && fs[j] == rest[j - 1];
          }
        }
      } else {
        assert fs == rest && ks == kept;
      }
    }
  }

  /** The index of the first element of `s` that passes `test`, as Python's `next(...)` over a generator finds it. */
  function FirstIndex<T>(s: seq<T>, test: T -> bool): (r: Option<nat>)
    ensures r.Some? ==> r.value < |s| && test(s[r.value])
    ensures r.Some? ==> forall j :: 0 <= j < r.value ==> !test(s[j])
    ensures r.None? ==> forall j :: 0 <= j < |s| ==> !test(s[j])
  {
    if s == [] then None
    else if test(s[0]) then Some(0)
    else match FirstIndex(s[1..], test)
      case None => None
      case Some(i) => Some(i + 1)
  }
}

=== FILE: forecast.dfy ===
/**
 * `future_page`: the table of predicted unit prices is read (UTF-8 first,
 * then CP949; when both fail an error is shown and nothing else), rows
 * lacking a region, a grade code, a channel code or a predicted price are
 * dropped, and the rows of one (grade, channel) pair are shown twice: as the
 * predicted price per region, and beside the actual prices with the gap from
 * each prediction to them.
 */
module Forecast {
  import opened Common
  import opened Numeric

  /** The two encodings tried, in this order. */
  const PredictionEncodings: seq<string> := ["utf-8", "cp949"]

  /**
   * One row of the prediction table as read: region (도), grade code
   * (등급_num), channel code (유통_num), predicted price (예상단가(원)), the
   * actual mean price (실제평균단가) and the last sale price
   * (마지막판매단가). A missing number is None.
   */
  datatype RawForecastRow = RawForecastRow(
    region: Option<string>,
    gradeCode: Cell,
    channelCode: Cell,
    predicted: Option<real>,
    actualMean: Option<real>,
    lastSale: Option<real>)

  /** A row that survived cleaning; the two actual prices may still be missing. */
  datatype ForecastRow = ForecastRow(
    region: string,
    grade: int,
    channel: int,
    predicted: real,
    actualMean: Option<real>,
    lastSale: Option<real>)

  /** Both codes coerced by `to_numeric`, then `dropna` on region, both codes and the predicted price. */
  function CleanForecastRow(r: RawForecastRow): (c: Option<ForecastRow>)
    ensures c.Some? <==> r.region.Some? && ToNumeric(r.gradeCode).Some?
                         && ToNumeric(r.channelCode).Some? && r.predicted.Some?
    ensures c.Some? ==> Some(c.value.region) == r.region && Some(c.value.grade) == ToNumeric(r.gradeCode)
                        && Some(c.value.channel) == ToNumeric(r.channelCode)
                        && Some(c.value.predicted) == r.predicted
                        && c.value.actualMean == r.actualMean && c.value.lastSale == r.lastSale
  {
    match (r.region, ToNumeric(r.gradeCode), ToNumeric(r.channelCode), r.predicted)
    case (Some(region), Some(g), Some(u), Some(p)) => Some(ForecastRow(region, g, u, p, r.actualMean, r.lastSale))
    case _ => None
  }

  /** The mask `dropna` applies: region, both coerced codes and the predicted price are present. */
  predicate ForecastRowSurvives(r: RawForecastRow)
  {
    CleanForecastRow(r).Some?
  }

  /** The cleaned table: the surviving rows, in file order. */
  function Prepare(rows: seq<RawForecastRow>): (r: seq<ForecastRow>)
    ensures |r| <= |rows|
    ensures forall i :: 0 <= i < |rows| && CleanForecastRow(rows[i]).Some? ==> CleanForecastRow(rows[i]).value in r
    ensures forall j :: 0 <= j < |r| ==> exists i :: 0 <= i < |rows| && CleanForecastRow(rows[i]) == Some(r[j])
  {
    FilterMap(rows, CleanForecastRow)
  }

  /**
   * The cleaned table has one row for each row `dropna` keeps, in order, so
   * a row that appears twice in the file appears twice after cleaning.
   */
  lemma PrepareOneRowPerSurvivor(rows: seq<RawForecastRow>)
    ensures |Prepare(rows)| == |Filter(rows, ForecastRowSurvives)|
    ensures forall j :: 0 <= j < |Prepare(rows)| ==>
              CleanForecastRow(Filter(rows, ForecastRowSurvives)[j]) == Some(Prepare(rows)[j])
  {
    FilterMapIsFilter(rows, CleanForecastRow, ForecastRowSurvives);
  }

  predicate IsPair(r: ForecastRow, grade: int, channel: int)
  {
    r.grade == grade && r.channel == channel
  }

  /** `dfp[(등급_num == grade) & (유통_num == channel)]`. */
  function SelectPair(rows: seq<ForecastRow>, grade: int, channel: int): (r: seq<ForecastRow>)
    ensures IsSubsequence(r, rows)
    ensures forall i :: 0 <= i < |r| ==> r[i] in rows && IsPair(r[i], grade, channel)
    ensures forall i :: 0 <= i < |rows| && IsPair(rows[i], grade, channel) ==> rows[i] in r
  {
    FilterIsSubsequence(rows, x => IsPair(x, grade, channel));
    Filter(rows, x => IsPair(x, grade, channel))
  }

  /** The selection keeps every copy of a row with the pair, so the page shows one line per such row. */
  lemma SelectPairKeepsCopies(rows: seq<ForecastRow>, grade: int, channel: int)
    ensures forall x :: multiset(SelectPair(rows, grade, channel))[x] == if IsPair(x, grade, channel) then multiset(rows)[x] else 0
  {
    FilterMultiset(rows, x => IsPair(x, grade, channel));
  }

  /** `predicted - actual` on a column that may hold NaN: missing when the actual price is. */
  function Gap(predicted: real, actual: Option<real>): (g: Option<real>)
    ensures g.Some? <==> actual.Some?
    ensures g.Some? ==> actual.value + g.value == predicted
    ensures g.Some? ==> (g.value > 0.0 <==> predicted > actual.value)
  {
    match actual
    case None => None
    case Some(a) => Some(predicted - a)
  }

  /** One line of the comparison table: region, actual mean, prediction, its gap, last sale, its gap. */
  datatype GapRow = GapRow(
    region: string,
    actualMean: Option<real>,
    predicted: real,
    gapToMean: Option<real>,
    lastSale: Option<real>,
    gapToLast: Option<real>)

  /**
   * The comparison table: one line per selected row, in the same order, each
   * carrying the row's prices and the two gaps, which are present exactly when
   * the actual price they compare with is, and which add back up to the
   * prediction.
   */
  function GapTable(rows: seq<ForecastRow>): (r: seq<GapRow>)
    ensures |r| == |rows|
    ensures forall i :: 0 <= i < |r| ==>
              r[i].region == rows[i].region && r[i].predicted == rows[i].predicted
              && r[i].actualMean == rows[i].actualMean && r[i].lastSale == rows[i].lastSale
    ensures forall i :: 0 <= i < |r| ==>
              (r[i].gapToMean.Some? <==> rows[i].actualMean.Some?)
              && (r[i].gapToMean.Some? ==> rows[i].actualMean.value + r[i].gapToMean.value == rows[i].predicted)
    ensures forall i :: 0 <= i < |r| ==>
              (r[i].gapToLast.Some? <==> rows[i].lastSale.Some?)
              && (r[i].gapToLast.Some? ==> rows[i].lastSale.value + r[i].gapToLast.value == rows[i].predicted)
  {
    if rows == [] then []
    else
      var x := rows[0];
      [GapRow(x.region, x.actualMean, x.predicted, Gap(x.predicted, x.actualMean), x.lastSale, Gap(x.predicted, x.lastSale))]
      + GapTable(rows[1..])
  }

  /** The comparison table is built row by row, so it follows the order of the selected rows. */
  lemma {:induction false} GapTableAppend(a: seq<ForecastRow>, b: seq<ForecastRow>)
    ensures GapTable(a + b) == GapTable(a) + GapTable(b)
  {
    if a == [] {
      assert a + b == b;
    } else {
      assert (a + b)[1..] == a[1..] + b;
      GapTableAppend(a[1..], b);
    }
  }

  /**
   * Codes read as text coerce to their numbers: a row whose grade and
   * channel codes are the text of two integers survives cleaning with
   * exactly those codes.
   */
  lemma TextCodesSurvive(region: string, grade: int, channel: int, predicted: real, actualMean: Option<real>, lastSale: Option<real>)
    ensures CleanForecastRow(RawForecastRow(Some(region), Text(Show(grade)), Text(Show(channel)), Some(predicted), actualMean, lastSale))
            == Some(ForecastRow(region, grade, channel, predicted, actualMean, lastSale))
  {
    ParseShow(grade);
    ParseShow(channel);
  }

  /** A prediction of 1000 against an actual mean of 900 and a last sale of 950 shows gaps of +100 and +50. */
  lemma GapExample(region: string)
    ensures GapTable([ForecastRow(region, 1, 1, 1000.0, Some(900.0), Some(950.0))])
            == [GapRow(region, Some(900.0), 1000.0, Some(100.0), Some(950.0), Some(50.0))]
  {
  }

  /** What the page shows once a table was read. */
  datatype ForecastView =
    | CannotLoad
    | NoMatch
    | Shown(prices: seq<(string, real)>, gaps: seq<GapRow>)

  /** `df_sel[["도", "예상단가(원)"]]`: line i is the region and prediction of selected row i. */
  predicate PricesOf(prices: seq<(string, real)>, picked: seq<ForecastRow>)
  {
    |prices| == |picked| && forall i :: 0 <= i < |picked| ==> prices[i] == (picked[i].region, picked[i].predicted)
  }

  /** No cleaned row has the pair exactly when the selection is empty. */
  lemma NoPairExactlyWhenEmpty(rows: seq<RawForecastRow>, grade: int, channel: int)
    ensures SelectPair(Prepare(rows), grade, channel) == [] <==>
              forall i :: 0 <= i < |rows| ==>
                CleanForecastRow(rows[i]).None? || !IsPair(CleanForecastRow(rows[i]).value, grade, channel)
  {
    var picked := SelectPair(Prepare(rows), grade, channel);
    if picked != [] {
      assert picked[0] in Prepare(rows);
    }
  }

  /**
   * The page for a table that was read: the warning, or the price table
   * (`df_sel`'s region and prediction per selected row) and the comparison
   * table built from the same selection.
   */
  function Present(rows: seq<RawForecastRow>, grade: int, channel: int): (v: ForecastView)
    ensures !v.CannotLoad?
    ensures v.NoMatch? <==> forall i :: 0 <= i < |rows| ==>
                              CleanForecastRow(rows[i]).None? || !IsPair(CleanForecastRow(rows[i]).value, grade, channel)
    ensures v.Shown? ==> |v.prices| == |v.gaps| > 0
    ensures v.Shown? ==> PricesOf(v.prices, SelectPair(Prepare(rows), grade, channel))
    ensures v.Shown? ==> v.gaps == GapTable(SelectPair(Prepare(rows), grade, channel))
  {
    var picked := SelectPair(Prepare(rows), grade, channel);
    NoPairExactlyWhenEmpty(rows, grade, channel);
    if picked == [] then
      NoMatch
    else
      Shown(seq(|picked|, i requires 0 <= i < |picked| => (picked[i].region, picked[i].predicted)), GapTable(picked))
  }

  /** The two tables line up: line i of the price table is line i of the comparison table. */
  lemma PricesMatchGaps(rows: seq<RawForecastRow>, grade: int, channel: int)
    ensures Present(rows, grade, channel).Shown? ==>
              var v := Present(rows, grade, channel);
              forall i :: 0 <= i < |v.prices| ==> v.prices[i] == (v.gaps[i].region, v.gaps[i].predicted)
  {
  }

  /**
   * `future_page` given what each encoding's read yields: the UTF-8 table if
   * it was read, else the CP949 table, else the error.
   */
  function FuturePage(read: string -> Option<seq<RawForecastRow>>, grade: int, channel: int): (v: ForecastView)
    ensures v.CannotLoad? <==> read(PredictionEncodings[0]).None? && read(PredictionEncodings[1]).None?
    ensures read(PredictionEncodings[0]).Some? ==> v == Present(read(PredictionEncodings[0]).value, grade, channel)
    ensures read(PredictionEncodings[0]).None? && read(PredictionEncodings[1]).Some? ==>
              v == Present(read(PredictionEncodings[1]).value, grade, channel)
  {
    match read(PredictionEncodings[0])
    case Some(rows) => Present(rows, grade, channel)
    case None =>
      match read(PredictionEncodings[1])
      case Some(rows) => Present(rows, grade, channel)
      case None => CannotLoad
  }
}

=== FILE: loader.dfy ===
/**
 * `load_csv`: read a table whose text encoding is not known by trying a fixed
 * list of encodings in order, then find the date column by name, rename it to
 * `date` and coerce its cells to dates.
 *
 * Reading and decoding bytes (`pd.read_csv`) and parsing one date
 * (`pd.to_datetime`) are library code; both are parameters here. A read is a
 * function from an encoding name to the table it yields, or None when the
 * attempt raised.
 */
module Loader {
  import opened Common

  /** The encodings tried, in this order. */
  const Encodings: seq<string> := ["utf-8", "cp949", "euc-kr"]

  /** Lower-cased column names recognised as the date column. */
  const DateAliases: set<string> := {"date", "조사일", "일자", "날짜"}

  /** The canonical name the date column gets. */
  const DateKey: string := "date"

  /** A table as the CSV reader yields it: a header and the rows of cells. */
  datatype Table = Table(columns: seq<string>, rows: seq<seq<Cell>>)

  const EmptyTable: Table := Table([], [])

  /** Every row has one cell per column. */
  predicate WellFormed(t: Table)
  {
    forall i :: 0 <= i < |t.rows| ==> |t.rows[i]| == |t.columns|
  }

  /** What the CSV reader guarantees of every table it returns: rectangular, with at least one column. */
  predicate Readable(t: Table)
  {
    WellFormed(t) && |t.columns| > 0
  }

  /**
   * The outcome of `load_csv`: the normalised table; the empty table after an
   * error message when no encoding could read the file; or the exception that
   * coercing the date column raises when two columns end up named `date`.
   */
  datatype LoadResult = Loaded(table: Table) | Unreadable | DuplicateDateColumn

  /** The table a caller receives: on Unreadable, the empty table. */
  function TableOf(r: LoadResult): (t: Table)
    requires !r.DuplicateDateColumn?
    ensures r.Loaded? ==> t == r.table
    ensures r.Unreadable? ==> |t.columns| == 0 && |t.rows| == 0
  {
    if r.Loaded? then r.table else EmptyTable
  }

  /** `str.lower()` on the ASCII letters; the Hangul aliases have no case. */
  function Lower(s: string): string
  {
    seq(|s|, i requires 0 <= i < |s| => if 'A' <= s[i] <= 'Z' then (s[i] as int + 32) as char else s[i])
  }

  predicate IsDateAlias(name: string)
  {
    Lower(name) in DateAliases
  }

  /** The index of the first encoding whose read succeeds, if any. */
  function FirstReadable<T>(read: string -> Option<T>, encodings: seq<string>): (r: Option<nat>)
    ensures r.Some? ==> r.value < |encodings| && read(encodings[r.value]).Some?
    ensures r.Some? ==> forall j :: 0 <= j < r.value ==> read(encodings[j]).None?
    ensures r.None? ==> forall j :: 0 <= j < |encodings| ==> read(encodings[j]).None?
  {
    FirstIndex(encodings, e => read(e).Some?)
  }

  /**
   * The date column: the first column, in column order, whose lower-cased
   * name is an alias; column 0 when none is.
   */
  function DateColumn(names: seq<string>): (k: nat)
    requires |names| > 0
    ensures k < |names|
    ensures forall j :: 0 <= j < k ==> !IsDateAlias(names[j])
    ensures IsDateAlias(names[k]) || (k == 0 && forall j :: 0 <= j < |names| ==> !IsDateAlias(names[j]))
  {
    match FirstIndex(names, IsDateAlias)
    case Some(k) => k
    case None => 0
  }

  /** `df.rename(columns={from: to})`: every column labelled `from` is relabelled `to`, the others keep their labels. */
  function Rename(names: seq<string>, from: string, to: string): (r: seq<string>)
    ensures |r| == |names|
    ensures forall i :: 0 <= i < |names| && names[i] == from ==> r[i] == to
    ensures forall i :: 0 <= i < |names| && names[i] != from ==> r[i] == names[i]
    ensures from != to ==> from !in r
  {
    seq(|names|, i requires 0 <= i < |names| => if names[i] == from then to else names[i])
  }

  /** `pd.to_datetime(cell, errors="coerce")`: a date, or missing when the cell does not parse. */
  function CoerceDate(c: Cell, parseDate: Cell -> Option<Date>): (r: Cell)
    ensures r.Day? || r.Blank?
    ensures c.Day? ==> r == c
    ensures c.Blank? ==> r.Blank?
  {
    match c
    case Blank => Blank
    case Day(_) => c
    case _ => match parseDate(c)
      case Some(d) => Day(d)
      case None => Blank
  }

  /** The rename and the date coercion applied to a table the reader returned. */
  function Normalize(raw: Table, parseDate: Cell -> Option<Date>): (r: LoadResult)
    requires Readable(raw)
    ensures !r.Unreadable?
    ensures r.DuplicateDateColumn? <==>
              exists j :: 0 <= j < |raw.columns| && j != DateColumn(raw.columns)
                          && (raw.columns[j] == raw.columns[DateColumn(raw.columns)] || raw.columns[j] == DateKey)
    ensures r.Loaded? ==> Readable(r.table)
    ensures r.Loaded? ==> |r.table.columns| == |raw.columns|
                          && r.table.columns[DateColumn(raw.columns)] == DateKey
                          && forall j :: 0 <= j < |raw.columns| && j != DateColumn(raw.columns) ==>
                               r.table.columns[j] == raw.columns[j] && r.table.columns[j] != DateKey
    ensures r.Loaded? ==> |r.table.rows| == |raw.rows|
                          && forall i, j :: 0 <= i < |raw.rows| && 0 <= j < |raw.columns| ==>
                               r.table.rows[i][j] == if j == DateColumn(raw.columns)
                                                     then CoerceDate(raw.rows[i][j], parseDate)
                                                     else raw.rows[i][j]
  {
    var k := DateColumn(raw.columns);
    var names := Rename(raw.columns, raw.columns[k], DateKey);
    if exists j :: 0 <= j < |raw.columns| && j != k && (raw.columns[j] == raw.columns[k] || raw.columns[j] == DateKey) then
      DuplicateDateColumn
    else
      Loaded(Table(names, seq(|raw.rows|, i requires 0 <= i < |raw.rows| =>
                                raw.rows[i][k := CoerceDate(raw.rows[i][k], parseDate)])))
  }

  /** What `load_csv` returns, given what each encoding's read yields. */
  function LoadSpec(read: string -> Option<Table>, parseDate: Cell -> Option<Date>): (r: LoadResult)
    requires forall e :: read(e).Some? ==> Readable(read(e).value)
    ensures r.Unreadable? <==> forall j :: 0 <= j < |Encodings| ==> read(Encodings[j]).None?
    ensures r.Loaded? ==> Readable(r.table) && DateKey in r.table.columns
  {
    match FirstReadable(read, Encodings)
    case None => Unreadable
    case Some(i) => Normalize(read(Encodings[i]).value, parseDate)
  }

  /**
   * The encoding fallback: the first encoding, in the order utf-8, cp949,
   * euc-kr, that reads the file decides the table, whatever the later ones
   * would have yielded.
   */
  lemma FirstReadableEncodingWins(read: string -> Option<Table>, parseDate: Cell -> Option<Date>, i: nat)
    requires forall e :: read(e).Some? ==> Readable(read(e).value)
    requires i < |Encodings| && read(Encodings[i]).Some?
    requires forall j :: 0 <= j < i ==> read(Encodings[j]).None?
    ensures LoadSpec(read, parseDate) == Normalize(read(Encodings[i]).value, parseDate)
  {
    var f := FirstReadable(read, Encodings);
    assert f.Some?;
    assert f.value == i;
  }

  /** `load_csv` itself: the loop over the encodings, then the normalisation of the first table read. */
  method LoadCsv(read: string -> Option<Table>, parseDate: Cell -> Option<Date>) returns (r: LoadResult)
    requires forall e :: read(e).Some? ==> Readable(read(e).value)
    ensures r == LoadSpec(read, parseDate)
  {
    var df: Option<Table> := None;
    var i := 0;
    while i < |Encodings|
      invariant 0 <= i <= |Encodings|
      invariant df.None?
      invariant forall j :: 0 <= j < i ==> read(Encodings[j]).None?
    {
      df := read(Encodings[i]);
      if df.Some? {
        break;
      }
      i := i + 1;
    }
    if df.None? {
      return Unreadable;
    }
    FirstReadableEncodingWins(read, parseDate, i);
    r := Normalize(df.value, parseDate);
  }
}

=== FILE: numeric.dfy ===
/**
 * The numeric coercions of the pipeline: removing thousands separators from
 * price text, and coercing text to a number (`pd.to_numeric(..., errors="coerce")`),
 * where text that is not a number becomes missing. Numbers are integers here:
 * an optional sign followed by decimal digits.
 */
module Numeric {
  import opened Common

  predicate NotComma(c: char)
  {
    c != ','
  }

  /** `text.str.replace(",", "")`: every comma removed, everything else kept in order. */
  function StripCommas(s: string): (r: string)
    ensures ',' !in r
    ensures forall c :: c != ',' ==> (c in r <==> c in s)
  {
    Filter(s, NotComma)
  }

  lemma StripCommasAppend(a: string, b: string)
    ensures StripCommas(a + b) == StripCommas(a) + StripCommas(b)
  {
    FilterAppend(a, b, NotComma);
  }

  lemma StripCommasNone(s: string)
    requires forall i :: 0 <= i < |s| ==> s[i] != ','
    ensures StripCommas(s) == s
  {
    FilterKeepsAll(s, NotComma);
  }

  predicate IsDigit(c: char)
  {
    '0' <= c <= '9'
  }

  predicate AllDigits(s: string)
  {
    forall i :: 0 <= i < |s| ==> IsDigit(s[i])
  }

  /** The value of a string of decimal digits, most significant first. */
  function DigitsValue(s: string): nat
    requires AllDigits(s)
  {
    if s == [] then 0 else DigitsValue(s[..|s| - 1]) * 10 + (s[|s| - 1] as int - '0' as int)
  }

  /** Text to number, or None when the text is not an optionally signed run of digits. */
  function ParseInteger(s: string): (r: Option<int>)
    ensures r.Some? ==> |s| > 0 && (IsDigit(s[0]) || s[0] == '-' || s[0] == '+')
  {
    if |s| > 1 && (s[0] == '-' || s[0] == '+') && AllDigits(s[1..]) then
      Some(if s[0] == '-' then -(DigitsValue(s[1..]) as int) else DigitsValue(s[1..]))
    else if |s| > 0 && AllDigits(s) then
      Some(DigitsValue(s))
    else
      None
  }

  function DigitChar(d: nat): char
    requires d < 10
  {
    ('0' as int + d) as char
  }

  /** Decimal digits of a natural number, as `str(n)` writes them. */
  function ShowNat(n: nat): (r: string)
    ensures |r| > 0 && AllDigits(r)
  {
    if n < 10 then [DigitChar(n)] else ShowNat(n / 10) + [DigitChar(n % 10)]
  }

  /** `str(n)` for an integer: a minus sign for negatives, then the digits. */
  function Show(n: int): string
  {
    if n < 0 then "-" + ShowNat(-n) else ShowNat(n)
  }

  lemma {:induction false} ShowNatValue(n: nat)
    ensures DigitsValue(ShowNat(n)) == n
  {
    if n >= 10 {
      var s := ShowNat(n);
      assert s[..|s| - 1] == ShowNat(n / 10);
      ShowNatValue(n / 10);
    }
  }

  /** Coercing the text of a number gives that number back: `str` and `to_numeric` are inverse. */
  lemma ParseShow(n: int)
    ensures ParseInteger(Show(n)) == Some(n)
  {
    if n < 0 {
      ShowNatValue(-n);
      assert Show(n)[1..] == ShowNat(-n);
    } else {
      ShowNatValue(n);
    }
  }

  /**
   * Coercion of one cell by `pd.to_numeric(..., errors="coerce")`: a number
   * stays, text is parsed, a missing value stays missing. The code columns
   * this is applied to never hold dates, so the `Day` case is unreachable;
   * the model sends it to missing.
   */
  function ToNumeric(c: Cell): (r: Option<int>)
    ensures c.Num? ==> r == Some(c.n)
    ensures c.Text? ==> r == ParseInteger(c.s)
    ensures c.Blank? || c.Day? ==> r.None?
  {
    match c
    case Blank => None
    case Num(n) => Some(n)
    case Text(s) => ParseInteger(s)
    case Day(_) => None
  }
}

=== FILE: price_rows.dfy ===
/**
 * The cleaning and the filter of the price-trend page: the price text loses
 * its thousands separators and is coerced to a number, rows missing any key
 * field are dropped, and the rows for one (region, grade, channel) and one
 * inclusive date range are selected.
 */
module PriceRows {
  import opened Common
  import opened Numeric

  /**
   * One row of the price table as read, after the date column (조사일) has
   * been coerced to a date (None for NaT) and the grade (등급) and channel
   * (유통구분) codes have been cast to integers. The region (도) may be
   * missing; the same-day price (당일) is a raw cell.
   */
  datatype RawPriceRow = RawPriceRow(date: Option<Date>, region: Option<string>, grade: int, channel: int, price: Cell)

  /** A row that survived cleaning: every field is present and the price is a number. */
  datatype PriceRow = PriceRow(date: Date, region: string, grade: int, channel: int, price: int)

  /** A month or day number as a timestamp prints it: two digits. */
  function Pad2(n: int): string
  {
    if 0 <= n < 10 then "0" + Show(n) else Show(n)
  }

  /**
   * The text `astype(str)` gives a cell; a missing value prints as "nan". The
   * price column is never parsed as dates; a date cell would print as its
   * ISO date, which does not coerce to a number.
   */
  function CellText(c: Cell): (r: string)
    ensures c.Num? ==> ParseInteger(r) == Some(c.n)
    ensures c.Text? ==> r == c.s
    ensures c.Blank? || c.Day? ==> ParseInteger(r).None?
  {
    match c
    case Blank =>
      assert !IsDigit("nan"[0]);
      "nan"
    case Num(n) =>
      ParseShow(n);
      Show(n)
    case Text(s) => s
    case Day(d) =>
      var r := Show(d.year) + "-" + Pad2(d.month) + "-" + Pad2(d.day);
      var m := |Show(d.year)|;
      assert 1 <= m && r[m] == '-';
      assert r[1..][m - 1] == '-';
      r
  }

  /** `pd.to_numeric(price.astype(str).str.replace(",", ""), errors="coerce")` for one cell. */
  function CleanPrice(c: Cell): (r: Option<int>)
    ensures c.Num? ==> r == Some(c.n)
    ensures c.Blank? ==> r.None?
  {
    var r := ParseInteger(StripCommas(CellText(c)));
    assert (c.Num? ==> r == Some(c.n)) && (c.Blank? ==> r.None?) by {
      if c.Num? {
        NoCommaInShow(c.n);
        ParseShow(c.n);
      } else if c.Blank? {
        StripCommasNone("nan");
        assert !IsDigit("nan"[0]);
      }
    }
    r
  }

  lemma NoCommaInShow(n: int)
    ensures StripCommas(Show(n)) == Show(n)
  {
    var s := Show(n);
    if n < 0 {
      assert s == "-" + ShowNat(-n);
      assert forall i :: 1 <= i < |s| ==> s[i] == ShowNat(-n)[i - 1];
    }
    StripCommasNone(s);
  }

  /** Removing the commas from `a + "," + b` when neither part holds one. */
  lemma StripOneComma(a: string, b: string)
    requires StripCommas(a) == a && StripCommas(b) == b
    ensures StripCommas(a + "," + b) == a + b
  {
    StripCommasAppend(a + ",", b);
    StripCommasAppend(a, ",");
    assert StripCommas(",") == "";
  }

  lemma StripSeparatedExample()
    ensures StripCommas("12,345") == "12345"
  {
    StripCommasNone("12");
    StripCommasNone("345");
    StripOneComma("12", "345");
    assert "12" + "," + "345" == "12,345";
    assert "12" + "345" == "12345";
  }

  lemma ParseExample()
    ensures ParseInteger("12345") == Some(12345)
  {
    assert "1"[..0] == "";
    assert DigitsValue("1") == 1;
    assert "12"[..1] == "1";
    assert DigitsValue("12") == 12;
    assert "123"[..2] == "12";
    assert DigitsValue("123") == 123;
    assert "1234"[..3] == "123";
    assert DigitsValue("1234") == 1234;
    assert "12345"[..4] == "1234";
    assert DigitsValue("12345") == 12345;
    assert AllDigits("12345") && "12345"[0] == '1';
  }

  /** "12,345" is coerced to 12345. */
  lemma SeparatedPriceParsed()
    ensures CleanPrice(Text("12,345")) == Some(12345)
  {
    StripSeparatedExample();
    ParseExample();
  }

  /** Text that is not a number, such as "N/A", becomes missing. */
  lemma NonNumericPriceMissing()
    ensures CleanPrice(Text("N/A")) == None
  {
    StripCommasNone("N/A");
    assert !IsDigit("N/A"[0]);
  }

  /** A text price is the integer its digits spell once the commas are gone. */
  lemma TextPrice(s: string)
    ensures CleanPrice(Text(s)) == ParseInteger(StripCommas(s))
  {
  }

  /** Thousands separators may stand anywhere: a comma in the text never changes the coerced price. */
  lemma CommaIgnored(a: string, b: string)
    ensures CleanPrice(Text(a + "," + b)) == CleanPrice(Text(a + b))
  {
    StripCommasAppend(a + ",", b);
    StripCommasAppend(a, ",");
    StripCommasAppend(a, b);
    assert StripCommas(",") == [];
    assert StripCommas(a + "," + b) == StripCommas(a + b);
    TextPrice(a + "," + b);
    TextPrice(a + b);
  }

  /**
   * The row after cleaning, or None when `dropna` removes it: a row survives
   * exactly when it has a date, a region and a price that coerces, and its
   * fields carry over with the price coerced.
   */
  function CleanRow(r: RawPriceRow): (c: Option<PriceRow>)
    ensures c.Some? <==> r.date.Some? && r.region.Some? && CleanPrice(r.price).Some?
    ensures c.Some? ==> Some(c.value.date) == r.date && Some(c.value.region) == r.region
                        && c.value.grade == r.grade && c.value.channel == r.channel
                        && Some(c.value.price) == CleanPrice(r.price)
  {
    if r.date.Some? && r.region.Some? && CleanPrice(r.price).Some? then
      Some(PriceRow(r.date.value, r.region.value, r.grade, r.channel, CleanPrice(r.price).value))
    else
      None
  }

  /** The mask `dropna` applies: the row has a date, a region and a price that coerces. */
  predicate RowSurvives(r: RawPriceRow)
  {
    CleanRow(r).Some?
  }

  /**
   * The cleaned table: the rows that have a date, a region and a numeric
   * price, in their original order, with the price coerced.
   */
  function Clean(rows: seq<RawPriceRow>): (r: seq<PriceRow>)
    ensures |r| <= |rows|
    ensures forall i :: 0 <= i < |rows| && CleanRow(rows[i]).Some? ==> CleanRow(rows[i]).value in r
    ensures forall j :: 0 <= j < |r| ==> exists i :: 0 <= i < |rows| && CleanRow(rows[i]) == Some(r[j])
  {
    FilterMap(rows, CleanRow)
  }

  /**
   * The cleaned table has one row for each row `dropna` keeps, in order, so
   * a row that appears twice in the file counts twice in the means.
   */
  lemma CleanOneRowPerSurvivor(rows: seq<RawPriceRow>)
    ensures |Clean(rows)| == |Filter(rows, RowSurvives)|
    ensures forall j :: 0 <= j < |Clean(rows)| ==> CleanRow(Filter(rows, RowSurvives)[j]) == Some(Clean(rows)[j])
  {
    FilterMapIsFilter(rows, CleanRow, RowSurvives);
  }

  /** Cleaning works row by row, so the order of the survivors is the order of the file. */
  lemma CleanAppend(a: seq<RawPriceRow>, b: seq<RawPriceRow>)
    ensures Clean(a + b) == Clean(a) + Clean(b)
  {
    FilterMapAppend(a, b, CleanRow);
  }

  /** The selection made by the three select boxes. */
  datatype Selection = Selection(region: string, grade: int, channel: int)

  /** The boolean mask of the page: exact region, grade and channel, `start <= date <= end`. */
  predicate Matches(r: PriceRow, sel: Selection, start: Date, end: Date)
  {
    r.region == sel.region && r.grade == sel.grade && r.channel == sel.channel && InRange(r.date, start, end)
  }

  /** `df[mask]`: exactly the matching rows, in their original order. */
  function SelectRows(rows: seq<PriceRow>, sel: Selection, start: Date, end: Date): (r: seq<PriceRow>)
    ensures IsSubsequence(r, rows)
    ensures forall i :: 0 <= i < |r| ==> r[i] in rows && Matches(r[i], sel, start, end)
    ensures forall i :: 0 <= i < |rows| && Matches(rows[i], sel, start, end) ==> rows[i] in r
  {
    FilterIsSubsequence(rows, x => Matches(x, sel, start, end));
    Filter(rows, x => Matches(x, sel, start, end))
  }

  /** The mask keeps every copy of a matching row, so a repeated row weighs twice in its group's mean. */
  lemma SelectRowsKeepsCopies(rows: seq<PriceRow>, sel: Selection, start: Date, end: Date)
    ensures forall x :: multiset(SelectRows(rows, sel, start, end))[x] == if Matches(x, sel, start, end) then multiset(rows)[x] else 0
  {
    FilterMultiset(rows, x => Matches(x, sel, start, end));
  }
}

=== FILE: price_trend.dfy ===
/**
 * `price_trend_page`: the price table is read (UTF-8 only; a failed read
 * shows an error and nothing else), cleaned, and the rows of one selection
 * are charted twice: as monthly means over one date range and as daily means
 * over another. A selection that matches no row shows a warning instead of a
 * chart.
 */
module PriceTrend {
  import opened Common
  import opened PriceRows
  import opened Aggregate

  /** A chart, or the warning shown when the filtered rows are empty. */
  datatype Chart = NoData | Series(points: seq<(Date, real)>)

  datatype TrendPage = CannotLoad | Trend(monthly: Chart, daily: Chart)

  /**
   * One chart of the page: the warning exactly when no row matches the
   * selection and range; otherwise a non-empty series, keys ascending, one
   * point per period, each the mean price of the matching rows in it.
   */
  function TrendChart(rows: seq<PriceRow>, sel: Selection, start: Date, end: Date, g: Granularity): (c: Chart)
    ensures c.NoData? <==> forall i :: 0 <= i < |rows| ==> !Matches(rows[i], sel, start, end)
    ensures c.Series? ==> |c.points| > 0
    ensures c.Series? ==> forall i, j :: 0 <= i < j < |c.points| ==> Before(c.points[i].0, c.points[j].0)
    ensures c.Series? ==> forall i :: 0 <= i < |c.points| ==>
              var picked := SelectRows(rows, sel, start, end);
              Count(picked, g, c.points[i].0) > 0
              && c.points[i].1 == Total(picked, g, c.points[i].0) as real / Count(picked, g, c.points[i].0) as real
    ensures c.Series? ==> forall i :: 0 <= i < |rows| && Matches(rows[i], sel, start, end) ==>
              exists p :: 0 <= p < |c.points| && c.points[p].0 == Period(g, rows[i].date)
  {
    var picked := SelectRows(rows, sel, start, end);
    if picked == [] then
      NoData
    else
      assert picked[0] in picked;
      Series(GroupMean(picked, g))
  }

  /** The page: the read, the cleaning, then the monthly and the daily chart over the same cleaned rows. */
  function PriceTrendPage(file: Option<seq<RawPriceRow>>, sel: Selection,
                          startMonth: Date, endMonth: Date, startDay: Date, endDay: Date): (p: TrendPage)
    ensures p.CannotLoad? <==> file.None?
    ensures p.Trend? ==> (p.monthly.NoData? <==> forall r :: r in Clean(file.value) ==> !Matches(r, sel, startMonth, endMonth))
    ensures p.Trend? ==> (p.daily.NoData? <==> forall r :: r in Clean(file.value) ==> !Matches(r, sel, startDay, endDay))
    ensures p.Trend? ==> p.monthly == TrendChart(Clean(file.value), sel, startMonth, endMonth, Monthly)
                         && p.daily == TrendChart(Clean(file.value), sel, startDay, endDay, Daily)
  {
    match file
    case None => CannotLoad
    case Some(raw) =>
      var rows := Clean(raw);
      Trend(TrendChart(rows, sel, startMonth, endMonth, Monthly), TrendChart(rows, sel, startDay, endDay, Daily))
  }
}

=== FILE: session.dfy ===
/**
 * The dashboard's session and its routing (`main`, `main_intro_page`,
 * `sidebar_header`, `producer_page`). The session holds two values that
 * survive reruns: whether the visitor has entered, and the member type they
 * chose. The intro page sets both; the home and logout buttons reset both;
 * and on every run the page shown is decided from them and from the page and
 * tab the sidebar selects. Only producers reach the dashboards.
 */
module Session {

  /** The member types offered on the intro page, as the radio button labels them. */
  const ProducerLabel: string := "👩‍🌾 생산자"
  const BuyerLabel: string := "🛍 구매자"
  const GuestLabel: string := "👀 비회원"

  /** The three emoji prefixes removed from the chosen label. */
  const ProducerMark: string := "👩‍🌾 "
  const BuyerMark: string := "🛍 "
  const GuestMark: string := "👀 "

  /** The member type allowed into the dashboards. */
  const Producer: string := "생산자"

  /** The two pages of the sidebar's page selector. */
  const SocialPage: string := "📊 소셜 빅데이터 분석"
  const DashboardPage: string := "💼 유통 정보 대시보드"

  /** The first two tabs of the producer menu; any other choice is the forecast tab. */
  const SocioeconTab: string := "📈 사회경제 지표"
  const PriceTrendTab: string := "💰 단가 트렌드"

  /** `pat` occurs in `s` starting at `i`. */
  predicate OccursAt(pat: string, s: string, i: nat)
  {
    i + |pat| <= |s| && s[i..i + |pat|] == pat
  }

  /**
   * `s.replace(pat, "")`: scanning from the left, every occurrence of `pat`
   * that does not overlap an earlier removed one is removed.
   */
  function RemoveAll(s: string, pat: string): (r: string)
    requires |pat| > 0
    ensures |r| <= |s|
    ensures (forall i: nat :: !OccursAt(pat, s, i)) ==> r == s
    decreases |s|
  {
    if |s| < |pat| then
      assert forall i: nat :: !OccursAt(pat, s, i);
      s
    else if s[..|pat|] == pat then
      assert OccursAt(pat, s, 0);
      RemoveAll(s[|pat|..], pat)
    else
      var rest := RemoveAll(s[1..], pat);
      assert (forall i: nat :: !OccursAt(pat, s, i)) ==> rest == s[1..] by {
        if forall i: nat :: !OccursAt(pat, s, i) {
          forall i: nat ensures !OccursAt(pat, s[1..], i) {
            assert !OccursAt(pat, s, i + 1);
            if i + |pat| <= |s[1..]| {
              assert s[1..][i..i + |pat|] == s[i + 1..i + 1 + |pat|];
            }
          }
        }
      }
      [s[0]] + rest
  }

  /** Text that does not contain the first character of `pat` contains no occurrence of it. */
  lemma NoOccurrence(pat: string, s: string)
    requires |pat| > 0 && pat[0] !in s
    ensures forall i: nat :: !OccursAt(pat, s, i)
  {
    forall i: nat ensures !OccursAt(pat, s, i) {
      if i + |pat| <= |s| {
        assert s[i..i + |pat|][0] == s[i];
      }
    }
  }

  /** Removing a prefix that does not occur again in the rest leaves exactly the rest. */
  lemma RemovePrefix(pat: string, rest: string)
    requires |pat| > 0 && pat[0] !in rest
    ensures RemoveAll(pat + rest, pat) == rest
  {
    var s := pat + rest;
    assert s[..|pat|] == pat;
    assert s[|pat|..] == rest;
    NoOccurrence(pat, rest);
  }

  /**
   * `user_type.replace("👩‍🌾 ", "").replace("🛍 ", "").replace("👀 ", "")`:
   * never longer than the chosen label, and text containing none of the
   * marks' first characters passes through all three removals unchanged.
   */
  function StripLabel(choice: string): (r: string)
    ensures |r| <= |choice|
    ensures ProducerMark[0] !in choice && BuyerMark[0] !in choice && GuestMark[0] !in choice ==> r == choice
  {
    var r := RemoveAll(RemoveAll(RemoveAll(choice, ProducerMark), BuyerMark), GuestMark);
    assert ProducerMark[0] !in choice && BuyerMark[0] !in choice && GuestMark[0] !in choice ==> r == choice by {
      if ProducerMark[0] !in choice && BuyerMark[0] !in choice && GuestMark[0] !in choice {
        NoOccurrence(ProducerMark, choice);
        NoOccurrence(BuyerMark, choice);
        NoOccurrence(GuestMark, choice);
      }
    }
    r
  }

  /** A label is its mark followed by a name that holds none of the marks: the name is what remains. */
  lemma StripMarked(mark: string, name: string)
    requires mark == ProducerMark || mark == BuyerMark || mark == GuestMark
    requires ProducerMark[0] !in name && BuyerMark[0] !in name && GuestMark[0] !in name
    ensures StripLabel(mark + name) == name
  {
    var s := mark + name;
    if mark == ProducerMark {
      RemovePrefix(ProducerMark, name);
      NoOccurrence(BuyerMark, name);
      NoOccurrence(GuestMark, name);
    } else if mark == BuyerMark {
      NoOccurrence(ProducerMark, s);
      RemovePrefix(BuyerMark, name);
      NoOccurrence(GuestMark, name);
    } else {
      NoOccurrence(ProducerMark, s);
      NoOccurrence(BuyerMark, s);
      RemovePrefix(GuestMark, name);
    }
  }

  lemma ProducerLabelStripped()
    ensures StripLabel(ProducerLabel) == Producer
  {
    assert ProducerLabel == ProducerMark + Producer;
    StripMarked(ProducerMark, Producer);
  }

  lemma BuyerLabelStripped()
    ensures StripLabel(BuyerLabel) == "구매자"
  {
    assert BuyerLabel == BuyerMark + "구매자";
    StripMarked(BuyerMark, "구매자");
  }

  lemma GuestLabelStripped()
    ensures StripLabel(GuestLabel) == "비회원"
  {
    assert GuestLabel == GuestMark + "비회원";
    StripMarked(GuestMark, "비회원");
  }

  /**
   * Each radio label becomes its plain member type once its emoji prefix is
   * removed: producer, buyer, guest.
   */
  lemma LabelsStripped()
    ensures StripLabel(ProducerLabel) == Producer
    ensures StripLabel(BuyerLabel) == "구매자"
    ensures StripLabel(GuestLabel) == "비회원"
  {
    ProducerLabelStripped();
    BuyerLabelStripped();
    GuestLabelStripped();
  }

  /** The page of the producer menu. */
  datatype Tab = SocioeconView | PriceTrendView | FutureView

  /** What one run of the app renders. */
  datatype View =
    | Intro
    | NoPermission
    | SocialBigData
    | ProducerDashboard(tab: Tab)
    | NothingSelected

  /** `producer_page`'s menu: the socio-economic tab, the price tab, or otherwise the forecast tab. */
  function TabOf(tab: string): (t: Tab)
    ensures t == SocioeconView <==> tab == SocioeconTab
    ensures t == PriceTrendView <==> tab == PriceTrendTab
  {
    if tab == SocioeconTab then SocioeconView
    else if tab == PriceTrendTab then PriceTrendView
    else FutureView
  }

  /**
   * `main`: the intro page until the visitor has entered; then, for anyone
   * but a producer, the no-permission page; for a producer, the page the
   * selector names.
   */
  function Route(entered: bool, userType: string, page: string, tab: string): (v: View)
    ensures v.Intro? <==> !entered
    ensures v.NoPermission? <==> entered && userType != Producer
    ensures v.SocialBigData? <==> entered && userType == Producer && page == SocialPage
    ensures v.ProducerDashboard? <==> entered && userType == Producer && page == DashboardPage
    ensures v.ProducerDashboard? ==> v.tab == TabOf(tab)
  {
    if !entered then Intro
    else if userType != Producer then NoPermission
    else if page == SocialPage then SocialBigData
    else if page == DashboardPage then ProducerDashboard(TabOf(tab))
    else NothingSelected
  }

  /** A dashboard is shown exactly to a visitor who has entered as a producer and selected a page. */
  lemma DashboardsOnlyForProducers(entered: bool, userType: string, page: string, tab: string)
    ensures (Route(entered, userType, page, tab).SocialBigData? || Route(entered, userType, page, tab).ProducerDashboard?)
            <==> entered && userType == Producer && (page == SocialPage || page == DashboardPage)
  {
  }

  /** Of the three member types on offer, entering as a producer is the only way to the dashboards. */
  lemma OnlyProducerLabelAdmitted(choice: string, page: string, tab: string)
    requires choice == ProducerLabel || choice == BuyerLabel || choice == GuestLabel
    ensures Route(true, StripLabel(choice), page, tab).NoPermission? <==> choice != ProducerLabel
  {
    LabelsStripped();
  }

  /** The state kept across reruns in `st.session_state`. */
  class SessionState {
    var entered: bool
    var userType: string

    /** The defaults `main` sets when the keys are absent. */
    constructor ()
      ensures !entered && userType == ""
    {
      entered := false;
      userType := "";
    }

    /** The enter button: record the chosen member type without its emoji prefix. */
    method Enter(choice: string)
      modifies this
      ensures entered && userType == StripLabel(choice)
    {
      entered := true;
      userType := StripLabel(choice);
    }

    /** The home button: back to the intro page, forgetting the member type. */
    method GoHome()
      modifies this
      ensures !entered && userType == ""
    {
      entered := false;
      userType := "";
    }

    /** The logout button: the same reset as the home button. */
    method Logout()
      modifies this
      ensures !entered && userType == ""
    {
      entered := false;
      userType := "";
    }

    /** The page this run renders for the sidebar's current page and tab. */
    function CurrentView(page: string, tab: string): (v: View)
      reads this
      ensures v.Intro? <==> !entered
      ensures v.NoPermission? <==> entered && userType != Producer
      ensures v.SocialBigData? || v.ProducerDashboard? ==> entered && userType == Producer
    {
      Route(entered, userType, page, tab)
    }
  }

  /**
   * A whole visit: entering as a buyer shows the no-permission page; entering
   * as a producer opens the selected dashboard tab; logging out returns to the
   * intro page.
   */
  method Visit(page: string, tab: string) returns (asBuyer: View, asProducer: View, afterLogout: View)
    requires page == DashboardPage
    ensures asBuyer == NoPermission
    ensures asProducer == ProducerDashboard(TabOf(tab))
    ensures afterLogout == Intro
  {
    LabelsStripped();
    var s := new SessionState();
    s.Enter(BuyerLabel);
    asBuyer := s.CurrentView(page, tab);
    s.GoHome();
    s.Enter(ProducerLabel);
    asProducer := s.CurrentView(page, tab);
    s.Logout();
    afterLogout := s.CurrentView(page, tab);
  }
}

=== FILE: socioecon.dfy ===
/**
 * `socioecon_page`: the macro table is loaded with the encoding fallback,
 * sorted by date, and each of six indicators is plotted over its own
 * inclusive date range; an indicator whose column is missing shows a warning.
 */
module Socioecon {
  import opened Common
  import opened Loader

  /** The indicator columns, in the order of the 3 x 2 grid. */
  const Indicators: seq<string> := [
    "소비자물가지수",
    "시간당 최저임금(원)",
    "평균유가",
    "산업용 전기 (₩/kWh)",
    "LPG (₩/L)",
    "LNG (₩/MMBtu)"
  ]

  type Row = seq<Cell>

  predicate HasColumn(rows: seq<Row>, k: nat)
  {
    forall i :: 0 <= i < |rows| ==> k < |rows[i]|
  }

  /** The date of a row, None when its date cell is NaT. */
  function RowDate(row: Row, k: nat): Option<Date>
    requires k < |row|
  {
    if row[k].Day? then Some(row[k].date) else None
  }

  /** The order of `sort_values("date")`: ascending dates, NaT last. */
  predicate DateLe(a: Option<Date>, b: Option<Date>)
  {
    b.None? || (a.Some? && NotAfter(a.value, b.value))
  }

  lemma DateLeIsTotalPreorder(a: Option<Date>, b: Option<Date>, c: Option<Date>)
    ensures DateLe(a, b) || DateLe(b, a)
    ensures DateLe(a, b) && DateLe(b, c) ==> DateLe(a, c)
  {
    if a.Some? && b.Some? && c.Some? {
      BeforeIsStrictTotalOrder(a.value, b.value, c.value);
      BeforeIsStrictTotalOrder(c.value, b.value, a.value);
    }
  }

  ghost predicate SortedByDate(rows: seq<Row>, k: nat)
    requires HasColumn(rows, k)
  {
    forall i, j :: 0 <= i < j < |rows| ==> DateLe(RowDate(rows[i], k), RowDate(rows[j], k))
  }

  /** Insert one row into rows already in date order. */
  function InsertByDate(x: Row, s: seq<Row>, k: nat): (r: seq<Row>)
    requires k < |x| && HasColumn(s, k)
    ensures |r| == |s| + 1 && HasColumn(r, k)
    ensures multiset(r) == multiset(s) + multiset{x}
    ensures forall i :: 0 <= i < |r| ==> r[i] == x || r[i] in s
  {
    if s == [] then [x]
    else if DateLe(RowDate(x, k), RowDate(s[0], k)) then [x] + s
    else
      var rest := InsertByDate(x, s[1..], k);
      assert s == [s[0]] + s[1..];
      assert forall i :: 0 <= i < |rest| ==> rest[i] == x || rest[i] in s;
      [s[0]] + rest
  }

  lemma SortedTail(s: seq<Row>, k: nat)
    requires HasColumn(s, k) && SortedByDate(s, k) && s != []
    ensures HasColumn(s[1..], k) && SortedByDate(s[1..], k)
    ensures forall i :: 0 <= i < |s| ==> DateLe(RowDate(s[0], k), RowDate(s[i], k))
  {
    forall i | 0 <= i < |s| ensures DateLe(RowDate(s[0], k), RowDate(s[i], k)) {
      if i == 0 {
        DateLeIsTotalPreorder(RowDate(s[0], k), RowDate(s[0], k), RowDate(s[0], k));
      }
    }
  }

  /** A row no later than every row of a sorted sequence can be put in front of it. */
  lemma SortedCons(x: Row, rest: seq<Row>, k: nat)
    requires k < |x| && HasColumn(rest, k) && SortedByDate(rest, k)
    requires forall i :: 0 <= i < |rest| ==> DateLe(RowDate(x, k), RowDate(rest[i], k))
    ensures HasColumn([x] + rest, k) && SortedByDate([x] + rest, k)
  {
    var s := [x] + rest;
    forall a, b | 0 <= a < b < |s| ensures DateLe(RowDate(s[a], k), RowDate(s[b], k)) {
      if a > 0 {
        assert s[a] == rest[a - 1] && s[b] == rest[b - 1];
      }
    }
  }

  lemma {:induction false} InsertByDateSorted(x: Row, s: seq<Row>, k: nat)
    requires k < |x| && HasColumn(s, k) && SortedByDate(s, k)
    ensures SortedByDate(InsertByDate(x, s, k), k)
  {
    var r := InsertByDate(x, s, k);
    if s == [] {
    } else if DateLe(RowDate(x, k), RowDate(s[0], k)) {
      SortedTail(s, k);
      forall j | 0 <= j < |s| ensures DateLe(RowDate(x, k), RowDate(s[j], k)) {
        DateLeIsTotalPreorder(RowDate(x, k), RowDate(s[0], k), RowDate(s[j], k));
      }
      SortedCons(x, s, k);
    } else {
      SortedTail(s, k);
      DateLeIsTotalPreorder(RowDate(x, k), RowDate(s[0], k), RowDate(s[0], k));
      InsertByDateSorted(x, s[1..], k);
      var rest := InsertByDate(x, s[1..], k);
      assert r == [s[0]] + rest;
      forall i | 0 <= i < |rest| ensures DateLe(RowDate(s[0], k), RowDate(rest[i], k)) {
        if rest[i] != x {
          var j :| 0 <= j < |s[1..]| && s[1..][j] == rest[i];
          assert s[j + 1] == rest[i];
        }
      }
      SortedCons(s[0], rest, k);
    }
  }

  /** `df.sort_values("date")`: the same rows, in date order with NaT last. */
  function SortByDate(rows: seq<Row>, k: nat): (r: seq<Row>)
    requires HasColumn(rows, k)
    ensures |r| == |rows| && HasColumn(r, k)
    ensures multiset(r) == multiset(rows)
    ensures forall i :: 0 <= i < |r| ==> r[i] in rows
    ensures SortedByDate(r, k)
  {
    if rows == [] then []
    else
      assert rows == [rows[0]] + rows[1..];
      var rest := SortByDate(rows[1..], k);
      InsertByDateSorted(rows[0], rest, k);
      InsertByDate(rows[0], rest, k)
  }

  /**
   * The row mask `(date >= start) & (date <= end)`: a NaT date compares
   * false, and a range whose start is after its end keeps nothing.
   */
  function InWindow(row: Row, k: nat, start: Date, end: Date): (b: bool)
    ensures b ==> k < |row| && row[k].Day? && NotAfter(start, end)
    ensures k < |row| && row[k].Blank? ==> !b
  {
    if k < |row| && row[k].Day? then
      BeforeIsStrictTotalOrder(start, row[k].date, end);
      InRange(row[k].date, start, end)
    else
      false
  }

  /** `df.loc[mask]`: the rows inside the range, and only those. */
  function Window(rows: seq<Row>, k: nat, start: Date, end: Date): (w: seq<Row>)
    ensures |w| <= |rows|
    ensures forall i :: 0 <= i < |w| ==> w[i] in rows && InWindow(w[i], k, start, end)
    ensures forall i :: 0 <= i < |rows| && InWindow(rows[i], k, start, end) ==> rows[i] in w
  {
    Filter(rows, row => InWindow(row, k, start, end))
  }

  /** The mask keeps every copy of a row inside the range and no copy of one outside it. */
  lemma WindowKeepsCopies(rows: seq<Row>, k: nat, start: Date, end: Date)
    ensures forall x :: multiset(Window(rows, k, start, end))[x] == if InWindow(x, k, start, end) then multiset(rows)[x] else 0
  {
    FilterMultiset(rows, row => InWindow(row, k, start, end));
  }

  lemma {:induction false} WindowSorted(rows: seq<Row>, k: nat, start: Date, end: Date)
    requires HasColumn(rows, k) && SortedByDate(rows, k)
    ensures HasColumn(Window(rows, k, start, end), k)
    ensures SortedByDate(Window(rows, k, start, end), k)
  {
    var w := Window(rows, k, start, end);
    if rows != [] {
      SortedTail(rows, k);
      WindowSorted(rows[1..], k, start, end);
      var rest := Window(rows[1..], k, start, end);
      if InWindow(rows[0], k, start, end) {
        assert w == [rows[0]] + rest;
        forall i | 0 <= i < |rest| ensures DateLe(RowDate(rows[0], k), RowDate(rest[i], k)) {
          var j :| 0 <= j < |rows[1..]| && rows[1..][j] == rest[i];
          assert rows[j + 1] == rest[i];
        }
        SortedCons(rows[0], rest, k);
      } else {
        assert w == rest;
      }
    }
  }

  /** What one indicator's cell shows. */
  datatype Panel =
    | MissingColumn                        // the warning: no such column
    | LengthMismatch                       // the exception `set_index` raises
    | Plot(points: seq<(Date, Cell)>)      // the line chart: (date, value) in order

  /** The (date, value) pairs of the rows inside the range, in row order. */
  function WindowPoints(rows: seq<Row>, k: nat, j: nat, start: Date, end: Date): seq<(Date, Cell)>
    requires HasColumn(rows, k) && HasColumn(rows, j)
  {
    var w := Window(rows, k, start, end);
    assert forall i :: 0 <= i < |w| ==> w[i] in rows && InWindow(w[i], k, start, end);
    seq(|w|, i requires 0 <= i < |w| => (w[i][k].date, w[i][j]))
  }

  lemma PointsFromRows(rows: seq<Row>, k: nat, j: nat, start: Date, end: Date)
    requires HasColumn(rows, k) && HasColumn(rows, j)
    ensures var p := WindowPoints(rows, k, j, start, end);
            forall i :: 0 <= i < |p| ==>
              InRange(p[i].0, start, end) && exists r :: r in rows && r[k] == Day(p[i].0) && r[j] == p[i].1
  {
    var w := Window(rows, k, start, end);
    var p := WindowPoints(rows, k, j, start, end);
    forall i | 0 <= i < |p|
      ensures InRange(p[i].0, start, end) && exists r :: r in rows && r[k] == Day(p[i].0) && r[j] == p[i].1
    {
      assert w[i] in rows && InWindow(w[i], k, start, end);
      assert w[i][k] == Day(p[i].0) && w[i][j] == p[i].1;
    }
  }

  lemma PointsCoverWindow(rows: seq<Row>, k: nat, j: nat, start: Date, end: Date)
    requires HasColumn(rows, k) && HasColumn(rows, j)
    ensures forall r: Row :: r in rows && InWindow(r, k, start, end) ==>
              (r[k].date, r[j]) in WindowPoints(rows, k, j, start, end)
  {
    var w := Window(rows, k, start, end);
    var p := WindowPoints(rows, k, j, start, end);
    forall r: Row | r in rows && InWindow(r, k, start, end) ensures (r[k].date, r[j]) in p {
      var i :| 0 <= i < |w| && w[i] == r;
      assert p[i] == (r[k].date, r[j]);
    }
  }

  lemma PointsInDateOrder(rows: seq<Row>, k: nat, j: nat, start: Date, end: Date)
    requires HasColumn(rows, k) && HasColumn(rows, j) && SortedByDate(rows, k)
    ensures var p := WindowPoints(rows, k, j, start, end);
            forall a, b :: 0 <= a < b < |p| ==> NotAfter(p[a].0, p[b].0)
  {
    WindowSorted(rows, k, start, end);
    var w := Window(rows, k, start, end);
    var p := WindowPoints(rows, k, j, start, end);
    forall a, b | 0 <= a < b < |p| ensures NotAfter(p[a].0, p[b].0) {
      assert DateLe(RowDate(w[a], k), RowDate(w[b], k));
    }
  }

  /**
   * The panel of indicator column `j` over `[start, end]` with the masked
   * rows indexed by their own dates: every point is a row of the table inside
   * the range, every row inside the range is a point, and on rows sorted by
   * date the points are in date order. There is one point per row of the
   * masked rows, so a row that appears twice is plotted twice.
   */
  function IndicatorPanel(rows: seq<Row>, k: nat, j: nat, start: Date, end: Date): (p: Panel)
    requires HasColumn(rows, k) && HasColumn(rows, j)
    ensures p.Plot?
    ensures |p.points| == |Window(rows, k, start, end)|
    ensures forall i :: 0 <= i < |p.points| ==>
              Window(rows, k, start, end)[i][k] == Day(p.points[i].0) && Window(rows, k, start, end)[i][j] == p.points[i].1
    ensures forall i :: 0 <= i < |p.points| ==>
              InRange(p.points[i].0, start, end)
              && exists r :: r in rows && r[k] == Day(p.points[i].0) && r[j] == p.points[i].1
    ensures forall r: Row :: r in rows && InWindow(r, k, start, end) ==> (r[k].date, r[j]) in p.points
    ensures SortedByDate(rows, k) ==>
              forall a, b :: 0 <= a < b < |p.points| ==> NotAfter(p.points[a].0, p.points[b].0)
  {
    PointsFromRows(rows, k, j, start, end);
    PointsCoverWindow(rows, k, j, start, end);
    assert SortedByDate(rows, k) ==>
             var q := WindowPoints(rows, k, j, start, end);
             forall a, b :: 0 <= a < b < |q| ==> NotAfter(q[a].0, q[b].0) by {
      if SortedByDate(rows, k) {
        PointsInDateOrder(rows, k, j, start, end);
      }
    }
    Plot(WindowPoints(rows, k, j, start, end))
  }

  /**
   * The panel as the page computes it: `df.loc[mask, [ind]]` re-indexed with
   * `set_index(df["date"])`, the date column of the whole table. pandas raises
   * a length mismatch unless the mask kept every row.
   */
  function IndicatorPanelAsWritten(rows: seq<Row>, k: nat, j: nat, start: Date, end: Date): (p: Panel)
    requires HasColumn(rows, k) && HasColumn(rows, j)
    ensures p.LengthMismatch? <==> exists i :: 0 <= i < |rows| && !InWindow(rows[i], k, start, end)
    ensures !p.LengthMismatch? ==> p == IndicatorPanel(rows, k, j, start, end)
  {
    var w := Window(rows, k, start, end);
    if |w| != |rows| then
      assert exists i :: 0 <= i < |rows| && !InWindow(rows[i], k, start, end) by {
        if forall i :: 0 <= i < |rows| ==> InWindow(rows[i], k, start, end) {
          FilterKeepsAll(rows, row => InWindow(row, k, start, end));
        }
      }
      LengthMismatch
    else
      FilterFullLength(rows, row => InWindow(row, k, start, end));
      assert forall i :: 0 <= i < |w| ==> InWindow(rows[i], k, start, end);
      var p := seq(|w|, i requires 0 <= i < |w| => (rows[i][k].date, w[i][j]));
      assert p == WindowPoints(rows, k, j, start, end);
      Plot(p)
  }

  /**
   * The discrepancy: with two monthly rows and a range narrowed to the
   * second month, the page as written raises, while indexing the masked rows
   * by their own dates plots the one row in range.
   */
  lemma NarrowedRangeRaises()
    ensures IndicatorPanelAsWritten([[Day(Date(2022, 1, 1)), Num(104)], [Day(Date(2022, 2, 1)), Num(105)]],
                                    0, 1, Date(2022, 2, 1), Date(2022, 2, 1)) == LengthMismatch
    ensures IndicatorPanel([[Day(Date(2022, 1, 1)), Num(104)], [Day(Date(2022, 2, 1)), Num(105)]],
                           0, 1, Date(2022, 2, 1), Date(2022, 2, 1)) == Plot([(Date(2022, 2, 1), Num(105))])
  {
    var rows: seq<Row> := [[Day(Date(2022, 1, 1)), Num(104)], [Day(Date(2022, 2, 1)), Num(105)]];
    assert !InWindow(rows[0], 0, Date(2022, 2, 1), Date(2022, 2, 1));
    assert rows[1..] == [rows[1]];
    assert rows[1..][1..] == [];
    assert Window(rows, 0, Date(2022, 2, 1), Date(2022, 2, 1)) == [rows[1]];
  }

  /** The index of the column named `name`, if there is one. */
  function ColumnIndex(names: seq<string>, name: string): (r: Option<nat>)
    ensures r.Some? ==> r.value < |names| && names[r.value] == name
    ensures r.None? <==> name !in names
  {
    FirstIndex(names, c => c == name)
  }

  /** One indicator's panel: the warning when its column is absent, else its plot over `range`. */
  function PanelFor(columns: seq<string>, sorted: seq<Row>, k: nat, name: string, range: (Date, Date)): (p: Panel)
    requires forall n: nat :: n < |columns| ==> HasColumn(sorted, n)
    requires k < |columns|
    ensures p.MissingColumn? <==> name !in columns
    ensures p.Plot? <==> name in columns
    ensures name in columns ==> p == IndicatorPanel(sorted, k, ColumnIndex(columns, name).value, range.0, range.1)
  {
    match ColumnIndex(columns, name)
    case None => MissingColumn
    case Some(j) => IndicatorPanel(sorted, k, j, range.0, range.1)
  }

  /**
   * One indicator's panel as the page computes it: the warning, or the
   * re-index by the whole date column, which raises when the range drops a row.
   */
  function PanelForAsWritten(columns: seq<string>, sorted: seq<Row>, k: nat, name: string, range: (Date, Date)): (p: Panel)
    requires forall n: nat :: n < |columns| ==> HasColumn(sorted, n)
    requires k < |columns|
    ensures p.MissingColumn? <==> name !in columns
    ensures p.LengthMismatch? <==>
              name in columns && exists i :: 0 <= i < |sorted| && !InWindow(sorted[i], k, range.0, range.1)
    ensures !p.LengthMismatch? ==> p == PanelFor(columns, sorted, k, name, range)
  {
    match ColumnIndex(columns, name)
    case None => MissingColumn
    case Some(j) => IndicatorPanelAsWritten(sorted, k, j, range.0, range.1)
  }

  /** What one run of the page shows. */
  datatype MacroView =
    | NothingShown                  // the loaded table is empty
    | Panels(panels: seq<Panel>)    // the whole grid, one panel per indicator
    | Aborted(shown: seq<Panel>)    // an exception ended the run after these panels

  /**
   * The grid loop as written: the panels in grid order, until the first one
   * whose re-index raises ends the run.
   */
  function RunGrid(panels: seq<Panel>): (v: MacroView)
    ensures v.Panels? || v.Aborted?
    ensures v.Panels? <==> forall i :: 0 <= i < |panels| ==> !panels[i].LengthMismatch?
    ensures v.Panels? ==> v.panels == panels
    ensures v.Aborted? ==> |v.shown| < |panels| && panels[|v.shown|].LengthMismatch?
                           && v.shown == panels[..|v.shown|]
                           && forall i :: 0 <= i < |v.shown| ==> !v.shown[i].LengthMismatch?
  {
    match FirstIndex(panels, (p: Panel) => p.LengthMismatch?)
    case None => Panels(panels)
    case Some(i) => Aborted(panels[..i])
  }

  /** The position of the `date` column. */
  function DateIndex(t: Table): (k: nat)
    requires DateKey in t.columns
    ensures k < |t.columns| && t.columns[k] == DateKey
  {
    ColumnIndex(t.columns, DateKey).value
  }

  /**
   * Some indicator that has a column is plotted over a range that leaves out
   * a row of the table: a row dated outside it, or a row whose date is NaT.
   */
  predicate RangeDropsRow(t: Table, ranges: seq<(Date, Date)>)
    requires WellFormed(t) && DateKey in t.columns && |ranges| == |Indicators|
  {
    exists i, n :: 0 <= i < |Indicators| && 0 <= n < |t.rows| && Indicators[i] in t.columns
                   && !InWindow(t.rows[n], DateIndex(t), ranges[i].0, ranges[i].1)
  }

  /** Sorting keeps the rows, so a range leaves out a row of the sorted table exactly when it leaves out one of the table. */
  lemma SortedDropsSameRows(rows: seq<Row>, k: nat, start: Date, end: Date)
    requires HasColumn(rows, k)
    ensures (exists i :: 0 <= i < |SortByDate(rows, k)| && !InWindow(SortByDate(rows, k)[i], k, start, end))
            <==> (exists n :: 0 <= n < |rows| && !InWindow(rows[n], k, start, end))
  {
    var sorted := SortByDate(rows, k);
    forall n | 0 <= n < |rows| && !InWindow(rows[n], k, start, end)
      ensures exists i :: 0 <= i < |sorted| && !InWindow(sorted[i], k, start, end)
    {
      assert rows[n] in multiset(rows);
      assert rows[n] in sorted;
      var i :| 0 <= i < |sorted| && sorted[i] == rows[n];
      assert !InWindow(sorted[i], k, start, end);
    }
    forall i | 0 <= i < |sorted| && !InWindow(sorted[i], k, start, end)
      ensures exists n :: 0 <= n < |rows| && !InWindow(rows[n], k, start, end)
    {
      assert sorted[i] in multiset(sorted);
      assert sorted[i] in rows;
      var n :| 0 <= n < |rows| && rows[n] == sorted[i];
      assert !InWindow(rows[n], k, start, end);
    }
  }

  /** `df.sort_values("date")` on a table with a `date` column. */
  function SortedRows(t: Table): (sorted: seq<Row>)
    requires WellFormed(t) && DateKey in t.columns
    ensures forall n: nat :: n < |t.columns| ==> HasColumn(sorted, n)
    ensures sorted == SortByDate(t.rows, DateIndex(t))
  {
    assert HasColumn(t.rows, DateIndex(t));
    var sorted := SortByDate(t.rows, DateIndex(t));
    assert forall n: nat :: n < |t.columns| ==> HasColumn(sorted, n) by {
      forall n: nat | n < |t.columns| ensures HasColumn(sorted, n) {
        assert HasColumn(t.rows, n);
      }
    }
    sorted
  }

  /** The six corrected panels of a non-empty table, in grid order. */
  function CorrectedGrid(t: Table, ranges: seq<(Date, Date)>): (panels: seq<Panel>)
    requires WellFormed(t) && DateKey in t.columns && |ranges| == |Indicators|
    ensures |panels| == |Indicators|
    ensures forall i :: 0 <= i < |Indicators| ==>
              (panels[i].MissingColumn? <==> Indicators[i] !in t.columns)
              && (panels[i].Plot? <==> Indicators[i] in t.columns)
    ensures forall i :: 0 <= i < |Indicators| ==>
              panels[i] == PanelFor(t.columns, SortByDate(t.rows, DateIndex(t)), DateIndex(t), Indicators[i], ranges[i])
  {
    var sorted := SortedRows(t);
    seq(|Indicators|, i requires 0 <= i < |Indicators| =>
      PanelFor(t.columns, sorted, DateIndex(t), Indicators[i], ranges[i]))
  }

  /** The six panels of a non-empty table as the page computes them, in grid order. */
  function WrittenGrid(t: Table, ranges: seq<(Date, Date)>): (panels: seq<Panel>)
    requires WellFormed(t) && DateKey in t.columns && |ranges| == |Indicators|
    ensures |panels| == |Indicators|
    ensures forall i :: 0 <= i < |Indicators| ==> (panels[i].MissingColumn? <==> Indicators[i] !in t.columns)
    ensures forall i :: 0 <= i < |Indicators| ==> !panels[i].LengthMismatch? ==> panels[i] == CorrectedGrid(t, ranges)[i]
  {
    var sorted := SortedRows(t);
    seq(|Indicators|, i requires 0 <= i < |Indicators| =>
      PanelForAsWritten(t.columns, sorted, DateIndex(t), Indicators[i], ranges[i]))
  }

  /** An indicator's panel as written raises exactly when its range leaves out a row, and is otherwise the corrected panel. */
  lemma WrittenPanel(t: Table, ranges: seq<(Date, Date)>, i: nat)
    requires WellFormed(t) && DateKey in t.columns && |ranges| == |Indicators| && i < |Indicators|
    ensures WrittenGrid(t, ranges)[i].LengthMismatch? <==>
              Indicators[i] in t.columns
              && exists n :: 0 <= n < |t.rows| && !InWindow(t.rows[n], DateIndex(t), ranges[i].0, ranges[i].1)
    ensures !WrittenGrid(t, ranges)[i].LengthMismatch? ==> WrittenGrid(t, ranges)[i] == CorrectedGrid(t, ranges)[i]
  {
    assert HasColumn(t.rows, DateIndex(t));
    SortedDropsSameRows(t.rows, DateIndex(t), ranges[i].0, ranges[i].1);
  }

  /**
   * The grid as written runs the corrected panels, in order, until the first
   * indicator whose range leaves out a row; it aborts exactly when there is one.
   */
  lemma WrittenGridRun(t: Table, ranges: seq<(Date, Date)>)
    requires WellFormed(t) && DateKey in t.columns && |ranges| == |Indicators|
    ensures RunGrid(WrittenGrid(t, ranges)).Aborted? <==> RangeDropsRow(t, ranges)
    ensures RunGrid(WrittenGrid(t, ranges)).Panels? ==> RunGrid(WrittenGrid(t, ranges)).panels == CorrectedGrid(t, ranges)
    ensures RunGrid(WrittenGrid(t, ranges)).Aborted? ==>
              var shown := RunGrid(WrittenGrid(t, ranges)).shown;
              |shown| < |Indicators| && forall i :: 0 <= i < |shown| ==> shown[i] == CorrectedGrid(t, ranges)[i]
  {
    var written := WrittenGrid(t, ranges);
    var corrected := CorrectedGrid(t, ranges);
    var v := RunGrid(written);
    forall i | 0 <= i < |Indicators|
      ensures written[i].LengthMismatch? <==>
                Indicators[i] in t.columns
                && exists n :: 0 <= n < |t.rows| && !InWindow(t.rows[n], DateIndex(t), ranges[i].0, ranges[i].1)
      ensures !written[i].LengthMismatch? ==> written[i] == corrected[i]
    {
      WrittenPanel(t, ranges, i);
    }
    if v.Panels? {
      assert written == corrected;
    }
  }

  /**
   * The page with the panels corrected: the exception `load_csv` raises for a
   * second `date` column ends the run before any panel; an empty table shows
   * nothing; otherwise one panel per indicator, a warning exactly for the
   * indicators without a column and a plot of the table sorted by date over
   * that indicator's own range for the others.
   */
  function SocioeconPage(r: LoadResult, ranges: seq<(Date, Date)>): (v: MacroView)
    requires r.Loaded? ==> WellFormed(r.table) && DateKey in r.table.columns
    requires |ranges| == |Indicators|
    ensures v.Aborted? <==> r.DuplicateDateColumn?
    ensures v.Aborted? ==> v.shown == []
    ensures !r.DuplicateDateColumn? ==> (v.NothingShown? <==> |TableOf(r).rows| == 0 || |TableOf(r).columns| == 0)
    ensures v.Panels? ==> |v.panels| == |Indicators|
    ensures v.Panels? ==> v.panels == CorrectedGrid(r.table, ranges)
    ensures v.Panels? ==> forall i :: 0 <= i < |Indicators| ==>
              (v.panels[i].MissingColumn? <==> Indicators[i] !in TableOf(r).columns)
              && (v.panels[i].Plot? <==> Indicators[i] in TableOf(r).columns)
  {
    if r.DuplicateDateColumn? then Aborted([])
    else if |TableOf(r).rows| == 0 || |TableOf(r).columns| == 0 then NothingShown
    else Panels(CorrectedGrid(r.table, ranges))
  }

  /**
   * The page as written: the same as the corrected page, except that the run
   * ends at the first indicator whose range leaves out a row, after the
   * panels before it.
   */
  function SocioeconPageAsWritten(r: LoadResult, ranges: seq<(Date, Date)>): (v: MacroView)
    requires r.Loaded? ==> WellFormed(r.table) && DateKey in r.table.columns
    requires |ranges| == |Indicators|
    ensures v.Aborted? <==> r.DuplicateDateColumn? || (r.Loaded? && RangeDropsRow(r.table, ranges))
    ensures !v.Aborted? ==> v == SocioeconPage(r, ranges)
    ensures v.Aborted? && !r.DuplicateDateColumn? ==>
              SocioeconPage(r, ranges).Panels? && |v.shown| < |Indicators|
              && forall i :: 0 <= i < |v.shown| ==> v.shown[i] == SocioeconPage(r, ranges).panels[i]
  {
    if r.DuplicateDateColumn? then Aborted([])
    else if |TableOf(r).rows| == 0 || |TableOf(r).columns| == 0 then NothingShown
    else
      WrittenGridRun(r.table, ranges);
      RunGrid(WrittenGrid(r.table, ranges))
  }

  /** The two pages agree exactly when no plotted range leaves out a row of the loaded table. */
  lemma PagesAgreeUnlessRangeDropsRow(r: LoadResult, ranges: seq<(Date, Date)>)
    requires r.Loaded? ==> WellFormed(r.table) && DateKey in r.table.columns
    requires |ranges| == |Indicators|
    ensures SocioeconPageAsWritten(r, ranges) == SocioeconPage(r, ranges)
            <==> !(r.Loaded? && RangeDropsRow(r.table, ranges))
  {
  }
}
